=== FILE: README.md ===
# Ledger engine of My-Blockchain, modelled in Dafny

This project models the ledger engine of a small in-browser blockchain
(`src/models`), in three parts:

- **`UTXOPool`** keeps one balance per owner. It holds transaction validity
  checks, an ordered diagnosis of a rejected transaction, and a transfer that
  debits the payer and credits the payee and the fee receiver.
- **`Block`** covers the root test, proof-of-work validity, the recomputed
  hash, child creation with the 12.5 coinbase subsidy, transaction
  application and the difficulty retarget rule.
- **`Blockchain`** is the block tree. It covers the genesis block,
  max-height selection, the parent-link walk that gives the longest chain,
  and the gated block acceptance `_addBlock`. Acceptance rebuilds a
  candidate's pool from its parent and re-applies its transactions.

The model is functional. Each mutation of the source becomes a function
that returns the new state.

- **Shared entry objects.** Owner entries (the UTXO objects) are mutable and
  shared between a pool and its clones. They are modelled as a `Heap` from
  entry ids to amounts, and a `Pool` maps owners to entry ids. So `clone`
  shares entries exactly as the source does. A credit through a child pool
  is visible in the parent when the owner already had an entry.
- **Plain JavaScript objects.** `blocks`, `transactions` and
  `pendingTransactions` become `JsObject.Dict`: insertion-ordered distinct
  keys over a map. Re-assigning an existing key keeps its position.
- **Digest.** SHA-256 is a `Digest.Hasher`. It is an arbitrary function
  from text to text, plus the digest of the number NaN. crypto-js skips a
  falsy message, so that digest is in fact the digest of the empty text; the
  model keeps it a separate value and its proofs cover that case too.
- **Outside inputs.** The clock reading is a parameter `now`.

Modules follow the source: `UtxoPool` (`src/models/UTXOPool.js`), `Blocks`
(`src/models/Block.js`) and `Blockchain` (`src/models/Blockchain.js`).
The helper modules are `Wrappers` (`Option`, `Result`), `JsObject`, `Digest`
and `Transactions`.

Behaviour reproduced as written:

- `clone` copies the owner map but shares the entry objects.
- `_generateBlockID` runs while `hash` is still undefined, so
  `undefined + height` is NaN. Every block's ID is the 8-character prefix of
  the digest of NaN, whatever its height or hash.
- `adjustDifficulty` calls `getPreviousBlock`, which the chain does not
  define. Off the root it fails (`GetPreviousBlockMissing`), so
  `createChild` only succeeds from a root block.
- `createChild` gives a child of the genesis block difficulty 2. The chain's
  `_calculateDifficulty` measures the time from the parent's timestamp to
  the child's, which is the clock reading `createChild` took. A child created
  within 5000 ms of genesis expects 3, and one created more than 20000 ms
  after it expects 1. Either way it is turned away, whatever nonce was mined
  and however late it is offered.
- `_addBlock` deletes pending transactions inside the loop, before it knows
  whether the block will be rejected. A rejected candidate keeps its rebuilt
  pool and transactions, and the entry objects it touched stay changed.

Three further behaviours of the code:

- **Max-height ties.** `MaxByHeight` follows Ramda's `maxBy` as
  `max(f(b), f(a)) === f(b) ? b : a` computes it, so the later block wins on
  equal heights. Only a block of maximal height is promised (see
  `MaxHeightBlock` under "Left out").
- **Publishing.** `addBlock` publishes the offered block whatever `_addBlock`
  decided, including after a rejection. Publishing is not modelled.
- **Throwing.** `createChild` throws off the root, as described above, so
  block creation can fail even though `_addBlock` itself never throws.

## Model

| member | source | states |
|---|---|---|
| UtxoPool.AddUtxo | src/models/UTXOPool.js:9-18 | The owner's balance becomes the old balance (0 when absent) plus the amount. The owner joins the owner set and every other owner's balance is unchanged. An existing owner keeps its entry object, so the owner map is unchanged. Entries not belonging to the owner keep their amounts. |
| UtxoPool.AddUtxoRaisesTotal | src/models/UTXOPool.js:9-18 | Crediting an owner raises the pool's total by exactly the amount credited. |
| UtxoPool.IsValidTransaction | src/models/UTXOPool.js:38-42 | A transaction is valid exactly when its input key has an entry, that entry holds at least amount plus fee, and the amount is positive. |
| UtxoPool.ErrorMessage | src/models/UTXOPool.js:44-59 | The diagnosis checks in order: no entry for the input key, then amount not positive, then balance below amount plus fee, and reports the balance, amount and fee. Each case is stated both ways. |
| UtxoPool.ErrorMessageUnknownIffValid | src/models/UTXOPool.js:38-59 | The diagnosis is "Unknown error" exactly when `isValidTransaction` holds. |
| UtxoPool.Debit | src/models/UTXOPool.js:25-31 | The payer's balance drops by the cost. The payer's entry is removed exactly when the remaining amount is 0. No other owner's balance or entry changes. |
| UtxoPool.Apply | src/models/UTXOPool.js:25-35 | The input is debited amount plus fee, the output is credited the amount and the fee receiver the fee; the three may coincide. Every other balance is unchanged. The owner set is the old one minus an emptied input plus output and receiver. The sum of all balances is conserved. Only the entry objects the pool gives to those three owners change: every other entry object, whichever pools share it, keeps its amount. An owner left in the pool keeps its entry or holds a newly made one. |
| UtxoPool.HandleTransaction | src/models/UTXOPool.js:20-36 | It fails exactly on an invalid transaction, with the diagnosis as the error (never "Unknown error") and nothing changed. Otherwise it performs the transfer. |
| UtxoPool.ApplyKeepsBalancesNonNegative | src/models/UTXOPool.js:25-42 | A valid transfer with a non-negative fee keeps every balance non-negative. |
| UtxoPool.Clone | src/models/UTXOPool.js:61-63 | The clone has the same owners, the same entry objects and so the same balances. |
| UtxoPool.CloneSharesEntries | src/models/UTXOPool.js:61-63 | Crediting, through the clone, an owner the original already holds raises the original's balance too. |
| UtxoPool.CloneKeysIndependent | src/models/UTXOPool.js:61-63 | Adding a new owner through the clone leaves the original's owners and balances as they were. |
| UtxoPool.PaymentExample | src/models/UTXOPool.js:20-35 | Worked example: an owner holding 12.5 pays 10 with fee 1. The payer is left with 1.5, the payee with 10 and the miner with 1. |
| Blocks.CombinedTransactionsHash | src/models/Block.js:100-108 | With no transactions it is the text "No Transactions in Block"; otherwise the digest of the transaction hashes joined in `Object.values` order. |
| Blocks.SentinelIffNoTransactions | src/models/Block.js:100-108 | With a digest that never yields the sentinel text, the combined hash is "No Transactions in Block" exactly when the block has no transactions. |
| Blocks.CalculateHash | src/models/Block.js:152-160 | The digest of nonce, parent hash, beneficiary, timestamp and combined transactions hash, concatenated in that order. |
| Blocks.HashIgnoresPoolAndCache | src/models/Block.js:152-160 | The recomputed hash does not depend on the pool, the cached hash or the block ID. |
| Blocks.GenerateBlockId | src/models/Block.js:162-164 | The block ID is a prefix of the digest of NaN, 8 characters long when that digest has at least 8, whatever the block's height or hash. |
| Blocks.BlockIdIsConstant | src/models/Block.js:162-164 | Any two blocks built by the constructor have the same block ID, whatever their options or clock reading. |
| Blocks.NewBlock | src/models/Block.js:10-45 | Options that are given are kept. Missing ones default to beneficiary "root", empty nonce, empty pool, no transactions, the clock reading and difficulty 2. The block ID is the one `_generateBlockID` gives and the stored hash is the recomputed hash. |
| Blocks.IsRoot | src/models/Block.js:47-49 | A block is a root exactly when its parent hash is the text "root". |
| Blocks.IsValid | src/models/Block.js:51-57 | A block is valid when it is a root, or its last `difficulty` characters (by `substr(-difficulty)`) are zeros and its hash is the recomputed one. `IsValidIff` restates this with trailing zeros. |
| Blocks.SuffixCheckIsTrailingZeros | src/models/Block.js:51-57 | The `substr(-d)` test holds exactly when the last `d` characters are '0'. At difficulty 0 only the empty hash passes, because `substr(-0)` is the whole string. |
| Blocks.IsValidIff | src/models/Block.js:51-57 | A block is valid exactly when it is a root, or it has the proof-of-work suffix and its hash equals the recomputed hash. |
| Blocks.ValidHashIsNotRootMarker | src/models/Block.js:51-57 | A valid non-root block's hash is never the text "root". |
| Blocks.RetargetRule | src/models/Block.js:110-119 | The result moves at most one step from the difficulty. It rises exactly when the time taken is under 5000 and falls exactly when the time is over 20000 and the difficulty is at least 2. It stays at least 1 when the difficulty is. |
| Blocks.RetargetMonotone | src/models/Block.js:113-118 | A slower block never gets a higher difficulty than a faster one. |
| Blocks.AdjustDifficulty | src/models/Block.js:110-119 | It succeeds exactly for a root block, with difficulty 2. Otherwise it fails, because `getPreviousBlock` is missing. |
| Blocks.CreateChild | src/models/Block.js:59-74 | It succeeds exactly from a root. The child has height plus one, the parent's hash, the beneficiary, the clock reading, difficulty 2, an empty nonce, no transactions and a current hash. Its pool is the parent's clone with the beneficiary credited 12.5, so the total rises by 12.5. |
| Blocks.CreateChildAlsoCreditsParent | src/models/Block.js:64-71 | When the beneficiary already holds an entry in the parent's pool, the parent's balance also rises by 12.5. |
| Blocks.BlockIsValidTransaction | src/models/Block.js:83-88 | A block accepts a transaction exactly when its pool finds it valid and its signature is valid. |
| Blocks.BlockErrorMessage | src/models/Block.js:90-93 | The signature is checked first: the result is "Signature is not valid" exactly when the signature fails, and otherwise it is the pool's own diagnosis. |
| Blocks.BlockErrorMessageUnknownIffValid | src/models/Block.js:83-93 | The block's diagnosis is the pool's "Unknown error" exactly when the block accepts the transaction. |
| Blocks.AddTransaction | src/models/Block.js:76-81 | It does nothing to a transaction the block rejects. Otherwise it records the transaction under its hash with no other key changed, and applies the transfer with the beneficiary as fee receiver. The header is kept, the hash is current and the pool's total is conserved. Only the entry objects of the input, the output and the beneficiary change. |
| Blocks.SetNonce | src/models/Block.js:95-98 | Only the nonce and the hash change, and the hash is current afterwards. |
| Blocks.SetNonceValidIff | src/models/Block.js:95-98 | After setting a nonce, a block of positive difficulty is valid exactly when it is a root or its new hash ends in `difficulty` zeros. |
| Blocks.BlockFromJson | src/models/Block.js:169-174 | A block rebuilt from its wire form has a current hash, an empty pool and the constant block ID. |
| Blocks.BlockFromJsonIgnoresHashAndId | src/models/Block.js:169-174 | The incoming hash and block ID play no part in the rebuilt block. |
| Blocks.ToJson | src/models/Block.js:134-146 | The wire form carries hash, block ID, nonce, parent hash, height, beneficiary, timestamp, difficulty and the transactions, and not the pool. |
| Blocks.JsonRoundTrip | src/models/Block.js:134-146 | Serializing and rebuilding a block keeps every field except the pool, the hash and the ID. The pool comes back empty and the hash comes back current. A valid block arrives valid, with its hash intact. |
| Blockchain.GenesisBlock | src/models/Blockchain.js:64-75 | The genesis block has height 1, parent "root", difficulty 2, nonce equal to the chain name, beneficiary "root", an empty pool, no transactions and a current hash. |
| Blockchain.NewChain | src/models/Blockchain.js:9-21 | A new chain stores exactly the genesis block under its hash and has nothing pending. |
| Blockchain.NewChainSatisfiesInvariant | src/models/Blockchain.js:64-75 | A new chain satisfies the chain invariant. |
| Blockchain.ContainsBlock | src/models/Blockchain.js:77-79 | A block is known exactly when some block is stored under its hash. |
| Blockchain.MaxByHeight | src/models/Blockchain.js:54-55 | The result is one of the two blocks, at least as high as both. |
| Blockchain.FoldMaxHeight | src/models/Blockchain.js:55 | The fold returns the start block or one of the blocks, at least as high as all of them. |
| Blockchain.MaxHeightBlock | src/models/Blockchain.js:50-56 | It is null exactly for an empty block map. Otherwise it is a stored block whose height is at least every stored block's height. |
| Blockchain.Walk | src/models/Blockchain.js:58-62 | On a linked tree, the parent walk from a stored block has the block's height as length and starts at genesis. It ends at the block, holds stored blocks of heights 1, 2, … and links each block to its parent. |
| Blockchain.LongestChain | src/models/Blockchain.js:58-62 | On a linked tree the longest chain exists, starts at genesis and ends at the max-height block. Its length is that block's height, with each block the child of the one before. |
| Blockchain.ValidateChain | src/models/Blockchain.js:146-151 | The result is true exactly when every block of the longest chain is valid. |
| Blockchain.AllValid | src/models/Blockchain.js:147-150 | The loop returns true exactly when every block in the sequence is valid. |
| Blockchain.InvariantChainValidates | src/models/Blockchain.js:146-151 | Every block of the longest chain of a chain satisfying the invariant is valid, so `validateChain` holds. |
| Blockchain.CalculateDifficulty | src/models/Blockchain.js:132-144 | It gives 2 for no block or a root block. Otherwise it applies the retarget rule to the stored parent's difficulty and the time since the parent, with a floor of 1. |
| Blockchain.Screen | src/models/Blockchain.js:89-97 | The gates apply in order: invalid proof, already known, unknown parent, height not parent's plus one, difficulty not the recomputed one. Each verdict holds exactly when its gate is the first to fail. |
| Blockchain.ReplayStep | src/models/Blockchain.js:111-123 | A transaction the block rejects sets the invalid flag and changes nothing else. An accepted one is added (current hash, total conserved); if the parent is the tip it is also dropped from pending. Pending only loses that hash. The balances are `ReplayStepBalances`. |
| Blockchain.ReplayStepBalances | src/models/Blockchain.js:114-115 | An accepted transaction moves each owner's balance by its delta: the amount to the output, the fee to the beneficiary, amount plus fee from the input. |
| Blockchain.ReplayStepFrame | src/models/Blockchain.js:113-123 | One turn changes only the entry objects the candidate's pool gives to the transaction's input, its output and the beneficiary, and hands out only new entries. |
| Blockchain.Reapply | src/models/Blockchain.js:109-124 | The loop keeps the header and the pool's total, and a flag once set stays set. It leaves a current hash when all of at least one transaction were accepted. Pending transactions only leave, only the carried ones and only when the parent is the tip. When the flag is set is `ReapplyFlagsRejection`. |
| Blockchain.ReapplyFrame | src/models/Blockchain.js:113-124 | The whole loop changes only the entry objects the starting pool gives to the beneficiary and to the inputs and outputs of the carried transactions; every other entry object keeps its amount. |
| Blockchain.ReapplyFlagsRejection | src/models/Blockchain.js:111-124 | The loop ends flagged exactly when it started flagged or some carried transaction is not accepted by the block as the loop leaves it just before that transaction. |
| Blockchain.ReapplyBalances | src/models/Blockchain.js:113-124 | When nothing was flagged, every owner's balance at the end is its balance at the start plus what each carried transaction moved to or from it: the amount to the output, the fee to the beneficiary, amount plus fee from the input. |
| Blockchain.ReapplyRecordsInOrder | src/models/Blockchain.js:109-124 | When all are accepted, transactions with distinct fresh hashes are recorded after the existing ones in carried order. |
| Blockchain.StartReplay | src/models/Blockchain.js:102-111 | The rebuild starts with the parent's owners plus the beneficiary, and a total of the parent's plus 12.5. The transactions are emptied, the rest of the block is kept, nothing is flagged and the pending set is the chain's. |
| Blockchain.StartReplayFrame | src/models/Blockchain.js:102-106 | Crediting the subsidy through the clone changes at most the parent's entry object of the beneficiary. |
| Blockchain.StartReplayBalances | src/models/Blockchain.js:102-106 | At the start of the rebuild the beneficiary holds its balance in the parent plus 12.5, and every other owner exactly its balance in the parent. |
| Blockchain.ParentIsTip | src/models/Blockchain.js:99 | The parent is the tip exactly when the max-height block exists and has the parent's hash. |
| Blockchain.Settle | src/models/Blockchain.js:99-130 | After the gates the verdict is stored or rejected for its transactions. When stored, the candidate is put under its hash; when rejected, the block map is unchanged. The candidate keeps the header and its total is the parent's plus 12.5. A block without transactions is always stored under its own hash. Pending transactions only leave, only carried ones and only when the parent is the tip. Which verdict is `AddBlockVerdict`. |
| Blockchain.AddBlock | src/models/Blockchain.js:89-130 | If a gate fails, everything is unchanged and the verdict is that gate. A block already known changes neither the chain nor the entry objects. Only an accepted block changes the block map, by storing the rebuilt candidate whose total is the parent's plus 12.5. Pending transactions only leave, and only carried ones. Which verdict after the gates is `AddBlockVerdict`; the balances are `AddBlockBalances`. |
| Blockchain.AddBlockVerdict | src/models/Blockchain.js:89-128 | A block is stored exactly when it passes every gate and each carried transaction, in `Object.values` order, is accepted by the candidate as the loop leaves it just before that transaction. |
| Blockchain.AddBlockFrame | src/models/Blockchain.js:102-128 | After the gates `_addBlock` changes only the entry objects the parent's pool gives to the beneficiary and to the owners its carried transactions name, whether or not the block is stored. |
| Blockchain.AddBlockKeepsOtherBalances | src/models/Blockchain.js:102-128 | A stored block keeps an owner's balance when its entry object for that owner is none of those. |
| Blockchain.AddBlockBalances | src/models/Blockchain.js:102-128 | In a stored block each owner holds its balance in the parent, plus 12.5 if it is the beneficiary, plus the sum of what the carried transactions moved to or from it. |
| Blockchain.AddBlockAlsoCreditsParent | src/models/Blockchain.js:102-106 | A block without transactions whose beneficiary already holds an entry in the parent's pool is stored, and the parent's own balance for the beneficiary rises by 12.5 through the shared entry. |
| Blockchain.RejectedBlockKeepsCredit | src/models/Blockchain.js:102-126 | A block whose only transaction fails is rejected and the block map is unchanged, yet the entry objects left behind still hold the 12.5 credited to the parent's shared entry of the beneficiary. |
| Blockchain.AcceptedKeepsHash | src/models/Blockchain.js:109-128 | If the carried transactions have distinct hashes, an accepted block is stored under the hash it arrived with and is still valid. |
| Blockchain.LinkedAfterInsert | src/models/Blockchain.js:93-128 | Inserting a fresh block whose parent is stored one level lower keeps the tree linked. |
| Blockchain.AddBlockKeepsInvariant | src/models/Blockchain.js:89-130 | `_addBlock` keeps the invariant: linked tree, well-formed pools, only valid blocks stored. This requires the carried transactions to have distinct hashes. |
| Blockchain.AddBlockKeepsPoolsReady | src/models/Blockchain.js:102-128 | Every stored pool stays well formed against the entry objects after `_addBlock`. |
| Blockchain.AddBlockIgnoresProposedPool | src/models/Blockchain.js:102-106 | The pool a proposer attached to a block does not change the verdict, the entry objects or the chain. |
| Blockchain.FreshChildOfGenesisTooFast | src/models/Blockchain.js:132-144 | A child of genesis made by `createChild` with a clock reading less than 5000 ms after genesis is rejected for its proof, as already known, or for its difficulty, whenever it is offered. |
| Blockchain.FreshChildOfGenesisTooSlow | src/models/Blockchain.js:132-144 | Such a child with a clock reading more than 20000 ms after genesis is rejected in the same ways, since the chain expects difficulty 1. |
| Blockchain.FreshChildOfGenesisOnTime | src/models/Blockchain.js:132-144 | With a clock reading between 5000 and 20000 ms after genesis, such a child passes the parent, height and difficulty gates. |
| Blockchain.PendingDroppedEvenWhenRejected | src/models/Blockchain.js:117-126 | When the parent is the tip and the first carried transaction is accepted, it leaves the pending set whatever the verdict. |
| Blockchain.AnnounceTransaction | src/models/Blockchain.js:33-40 | An announced transaction is pending under its hash and every other pending entry is unchanged. |
| Blockchain.ReceiveBlocks | src/models/Blockchain.js:25-30 | Receiving a batch keeps the name and genesis and never forgets a stored hash. Pending transactions only leave and every pool stays well formed. |
| Blockchain.ReceiveBlocksInOrder | src/models/Blockchain.js:25-30 | The handler offers the delivered blocks to `_addBlock` one by one in delivery order: receiving one more block gives exactly what `_addBlock` does with that block, rebuilt from its wire form, after the others. |
| Blockchain.ReceiveKnownBlocks | src/models/Blockchain.js:25-30 | Re-delivering blocks whose rebuilt hashes are already stored leaves the chain and the entry objects unchanged, because `_addBlock` returns at once on a block it already holds (line 91). |
| Blockchain.ReceiveBlocksKeepsInvariant | src/models/Blockchain.js:25-30 | Receiving a batch keeps the chain invariant, when each received block's transactions have distinct hashes. |

## Left out

- **Network.** The publish/subscribe transport is not modelled: block requests, block broadcasts, and the publish in `addBlock`, which also happens after a rejection. Only the ledger effect of the two receive handlers is modelled, as `ReceiveBlocks` and `AnnounceTransaction`.
- **User interface.** `rerender`, `logChain`, `logBlock`, the `expanded` flag and the `blockchain` back-reference field are not modelled: they only concern presentation.
- **Clock.** `Date.now()` is replaced by a parameter `now`.
- **Digest.** SHA-256 internals, hex encoding and the fixed digest length are not modelled; the digest is an arbitrary function.
- **Transactions.** The Transaction module is not part of this model. A transaction is a record with an abstract signature flag, and its JSON conversion is the identity.
- **Entries.** `src/models/UTXO.js` is not part of this model. An entry is modelled only by its amount.
- **Numbers.** Floating-point rounding is not modelled. Amounts are exact reals, so the zero test after a debit is exact. Heights and timestamps are unbounded integers, and number-to-text conversion is modelled only for integers below 10^21 (JavaScript writes larger ones in exponent notation).
- **Difficulty.** Difficulty is a natural number. A negative difficulty from the wire, where `"0".repeat` throws, is not modelled.
- **Wire values.** Wire fields of the wrong JavaScript type are not modelled.
- **Block aliasing.** Blocks are values. `_addBlock` stores the caller's own block object, so a later `setNonce` or `addTransaction` on that object would re-hash a stored block in place, leaving it under its old key. The model stores a copy, and `AddBlock` and the invariant `ChainInv`, whose `Linked` part pins each stored block's hash to its key, rely on that.
- **Object keys.** The special ordering of integer-like keys in plain objects and prototype keys such as `__proto__` are not modelled.
- Blockchain.MaxHeightBlock: states only that the result is some block of maximal height. `MaxByHeight` computes the later-block tie-break of the Ramda `maxBy` shown above, but the Ramda version is not part of this model, so the contract does not promise which block wins a tie.
- Blockchain.CalculateDifficulty: requires the parent of a non-root block to be stored. Without it the source throws a TypeError, but `_addBlock` only calls it after the parent gate.
- Blockchain.LongestChain: requires a linked tree, which guarantees the walk ends. On an arbitrary block map the source's walk could cycle forever.
- Blockchain.AddBlock: requires every stored pool to be well formed against the entry objects. This holds for every chain built by `NewChain` and `AddBlock`.
- Blockchain.AddBlockKeepsInvariant: assumes the carried transactions have distinct hashes. With a repeated hash the rebuilt hash differs from the mined one, and the block can be stored under a new key.
- Blockchain.ReceiveBlocksKeepsInvariant: makes the same distinct-hash assumption for every received block.
- Blockchain.Reapply: does not state which transaction keys the rebuilt block holds when hashes repeat. The distinct-hash case is `ReapplyRecordsInOrder`.

=== FILE: block.dfy ===
/** A block: header fields, the transactions it carries (keyed by
    transaction hash, in insertion order) and the UTXO pool it ends with.
    Covers hashing, the proof-of-work test, deriving a child, adding
    transactions, mining, difficulty retargeting and the wire form. */
module Blocks {
  import opened Wrappers
  import opened Digest
  import opened JsObject
  import opened Transactions
  import opened UtxoPool

  const INITIAL_DIFFICULTY: nat := 2
  /** Target time between blocks, in milliseconds. */
  const TARGET_BLOCK_TIME: int := 10000
  /** The subsidy credited to a block's beneficiary. */
  const COINBASE_REWARD: real := 12.5
  /** The parent hash that marks a genesis block. */
  const ROOT: string := "root"
  /** What `combinedTransactionsHash` returns for a block without transactions. */
  const NO_TRANSACTIONS: string := "No Transactions in Block"

  datatype Block = Block(
    nonce: string,
    parentHash: string,
    height: int,
    coinbaseBeneficiary: Owner,
    utxoPool: Pool,
    transactions: Dict<Transaction>,
    timestamp: int,
    difficulty: nat,
    blockId: string,
    hash: string)

  /** The options object of `new Block(opts)`; `None` means the field is not
      given and the constructor's default applies. */
  datatype BlockOptions = BlockOptions(
    parentHash: string,
    height: int,
    coinbaseBeneficiary: Option<Owner>,
    nonce: Option<string>,
    utxoPool: Option<Pool>,
    transactions: Option<Dict<Transaction>>,
    timestamp: Option<int>,
    difficulty: Option<nat>)

  /** `adjustDifficulty` on a non-root block calls
      `blockchain.getPreviousBlock`, which the chain does not define, so the
      call fails with a TypeError. */
  datatype BlockError = GetPreviousBlockMissing

  /** The heap of entry objects together with a block, after an operation
      that may have changed both. */
  datatype Mined = Mined(heap: Heap, block: Block)

  /** Why `addTransaction` would ignore a transaction. */
  datatype BlockTxError = InvalidSignature | PoolRejects(reason: TxError)

  /** The transaction hashes joined with no separator. */
  function JoinHashes(txs: seq<Transaction>): (r: string)
    ensures txs == [] ==> r == ""
  {
    if txs == [] then "" else JoinHashes(txs[..|txs| - 1]) + txs[|txs| - 1].hash
  }

  /** `combinedTransactionsHash()` */
  function CombinedTransactionsHash(h: Hasher, txs: Dict<Transaction>): string {
    if |txs.keys| == 0 then NO_TRANSACTIONS
    else h.ofText(JoinHashes(Values(txs)))
  }

  /** With a digest that never yields the sentinel text, the sentinel marks
      exactly the blocks without transactions. */
  lemma SentinelIffNoTransactions(h: Hasher, txs: Dict<Transaction>)
    requires forall s :: h.ofText(s) != NO_TRANSACTIONS
    ensures CombinedTransactionsHash(h, txs) == NO_TRANSACTIONS <==> |Values(txs)| == 0
  {
  }

  /** The text `_calculateHash` digests: nonce, parent hash, beneficiary,
      timestamp and combined transaction hash, concatenated. */
  function HashInput(h: Hasher, b: Block): string {
    b.nonce + b.parentHash + b.coinbaseBeneficiary + IntToDecimal(b.timestamp)
      + CombinedTransactionsHash(h, b.transactions)
  }

  /** `_calculateHash()` */
  function CalculateHash(h: Hasher, b: Block): string {
    h.ofText(HashInput(h, b))
  }

  /** The recomputed hash reads neither the pool nor the cached hash and ID. */
  lemma HashIgnoresPoolAndCache(h: Hasher, b: Block, pool: Pool, hash: string, id: string)
    ensures CalculateHash(h, b.(utxoPool := pool, hash := hash, blockId := id)) == CalculateHash(h, b)
  {
  }

  /** `_generateBlockID()`. It runs before the hash is set, so `this.hash` is
      undefined and `this.hash + this.height` is the number NaN whatever the
      height: every block gets the first 8 characters of the digest of NaN. */
  function GenerateBlockId(h: Hasher, height: int): (r: string)
    ensures r <= h.ofNaN
    ensures |r| <= 8 && (|h.ofNaN| >= 8 ==> |r| == 8)
  {
    Prefix(h.ofNaN, 8)
  }

  /** `new Block(opts)`: defaults for the missing options, then the block ID,
      then the hash. `now` is the clock reading used when no timestamp is
      given. */
  function NewBlock(h: Hasher, opts: BlockOptions, now: int): (b: Block)
    ensures b.parentHash == opts.parentHash && b.height == opts.height
    ensures b.coinbaseBeneficiary == opts.coinbaseBeneficiary.GetOr(ROOT)
    ensures b.nonce == opts.nonce.GetOr("")
    ensures b.utxoPool == opts.utxoPool.GetOr(Pool(map[]))
    ensures b.transactions == opts.transactions.GetOr(Empty())
    ensures b.timestamp == opts.timestamp.GetOr(now)
    ensures b.difficulty == opts.difficulty.GetOr(INITIAL_DIFFICULTY)
    ensures b.blockId == GenerateBlockId(h, opts.height)
    ensures b.hash == CalculateHash(h, b)
  {
    var b := Block(
      opts.nonce.GetOr(""),
      opts.parentHash,
      opts.height,
      opts.coinbaseBeneficiary.GetOr(ROOT),
      opts.utxoPool.GetOr(Pool(map[])),
      opts.transactions.GetOr(Empty()),
      opts.timestamp.GetOr(now),
      opts.difficulty.GetOr(INITIAL_DIFFICULTY),
      GenerateBlockId(h, opts.height),
      "");
    b.(hash := CalculateHash(h, b))
  }

  /** All blocks receive the same ID: it depends on neither the hash nor the
      height. */
  lemma BlockIdIsConstant(h: Hasher, o1: BlockOptions, o2: BlockOptions, t1: int, t2: int)
    ensures NewBlock(h, o1, t1).blockId == NewBlock(h, o2, t2).blockId
  {
  }

  /** `isRoot()` */
  predicate IsRoot(b: Block) {
    b.parentHash == ROOT
  }

  /** `s.substr(-d)`: a negative start counts from the end and is clamped to
      0; `-0` is 0, so the whole string comes back when `d` is 0. */
  function SubstrFromEnd(s: string, d: nat): string {
    if d == 0 then s else if d <= |s| then s[|s| - d..] else s
  }

  /** `"0".repeat(d)` */
  function Zeros(d: nat): (r: string)
    ensures |r| == d && forall i :: 0 <= i < d ==> r[i] == '0'
  {
    seq(d, i => '0')
  }

  /** The proof-of-work condition stated directly: the last `d` characters
      exist and are all '0'. */
  predicate HasTrailingZeros(s: string, d: nat) {
    d <= |s| && forall i :: |s| - d <= i < |s| ==> s[i] == '0'
  }

  /** `isValid()`: a root block is always valid; any other block needs the
      proof-of-work suffix and a hash that matches its contents. */
  predicate IsValid(h: Hasher, b: Block) {
    || IsRoot(b)
    || (SubstrFromEnd(b.hash, b.difficulty) == Zeros(b.difficulty) && b.hash == CalculateHash(h, b))
  }

  /** The suffix comparison in `isValid` is the trailing-zeros condition for a
      positive difficulty; at difficulty 0 only the empty hash passes. */
  lemma SuffixCheckIsTrailingZeros(s: string, d: nat)
    ensures SubstrFromEnd(s, d) == Zeros(d) <==> (if d == 0 then s == "" else HasTrailingZeros(s, d))
  {
    if d > 0 && d <= |s| && HasTrailingZeros(s, d) {
      var suffix := s[|s| - d..];
      assert forall i :: 0 <= i < d ==> suffix[i] == s[|s| - d + i];
      assert SubstrFromEnd(s, d) == Zeros(d);
    }
    if d > 0 && d <= |s| && SubstrFromEnd(s, d) == Zeros(d) {
      forall i | |s| - d <= i < |s| ensures s[i] == '0' {
        assert s[|s| - d..][i - (|s| - d)] == s[i];
      }
    }
  }

  /** Validity of a non-root block, with the suffix test spelled out. */
  lemma IsValidIff(h: Hasher, b: Block)
    ensures IsValid(h, b) <==>
      || IsRoot(b)
      || (&& (if b.difficulty == 0 then b.hash == "" else HasTrailingZeros(b.hash, b.difficulty))
          && b.hash == CalculateHash(h, b))
  {
    SuffixCheckIsTrailingZeros(b.hash, b.difficulty);
  }

  /** A valid non-root block never has the genesis marker as its hash. */
  lemma ValidHashIsNotRootMarker(h: Hasher, b: Block)
    requires IsValid(h, b) && !IsRoot(b)
    ensures b.hash != ROOT
  {
    SuffixCheckIsTrailingZeros(b.hash, b.difficulty);
    assert ROOT[|ROOT| - 1] == 't';
    if b.difficulty > 0 {
      assert b.hash[|b.hash| - 1] == '0';
    }
  }

  /** The difficulty retarget rule shared by `adjustDifficulty` and the
      chain's `_calculateDifficulty`: one step harder when the block came in
      under half the target time, one step easier (never below 1) when it
      took over twice the target, unchanged otherwise. */
  function RetargetRule(difficulty: nat, timeTaken: int): (r: nat)
    ensures difficulty >= 1 ==> r >= 1
    ensures difficulty - 1 <= r <= difficulty + 1
    ensures difficulty >= 1 ==> (r > difficulty <==> timeTaken < TARGET_BLOCK_TIME / 2)
    ensures r < difficulty <==> timeTaken > TARGET_BLOCK_TIME * 2 && difficulty >= 2
  {
    if timeTaken < TARGET_BLOCK_TIME / 2 then difficulty + 1
    else if timeTaken > TARGET_BLOCK_TIME * 2 then (if difficulty - 1 > 1 then difficulty - 1 else 1)
    else difficulty
  }

  /** A slower block never gets a higher difficulty than a faster one. */
  lemma RetargetMonotone(difficulty: nat, t1: int, t2: int)
    requires difficulty >= 1 && t1 <= t2
    ensures RetargetRule(difficulty, t2) <= RetargetRule(difficulty, t1)
  {
  }

  /** `adjustDifficulty()`: the initial difficulty for a root block; for any
      other block the missing `getPreviousBlock` makes it fail. */
  function AdjustDifficulty(b: Block): (r: Result<nat, BlockError>)
    ensures r.Success? <==> IsRoot(b)
    ensures r.Success? ==> r.value == INITIAL_DIFFICULTY
  {
    if IsRoot(b) then Success(INITIAL_DIFFICULTY) else Failure(GetPreviousBlockMissing)
  }

  /** `createChild(coinbaseBeneficiary)`: a block one higher that points at
      this one, with a clone of this block's pool credited with the subsidy.
      `now` is the clock reading. Because `adjustDifficulty` fails off the
      root, only a root block has children this way. */
  function CreateChild(h: Hasher, heap: Heap, parent: Block, beneficiary: Owner, now: int)
    : (r: Result<Mined, BlockError>)
    requires Wf(heap, parent.utxoPool)
    ensures r.Success? <==> IsRoot(parent)
    ensures r.Failure? ==> r.error == GetPreviousBlockMissing
    ensures r.Success? ==>
      var child := r.value.block;
      && child.height == parent.height + 1
      && child.parentHash == parent.hash
      && child.coinbaseBeneficiary == beneficiary
      && child.timestamp == now
      && child.difficulty == INITIAL_DIFFICULTY
      && child.nonce == ""
      && |child.transactions.keys| == 0
      && child.hash == CalculateHash(h, child)
      && Wf(r.value.heap, child.utxoPool) && Grows(heap, r.value.heap)
      && child.utxoPool.entries.Keys == parent.utxoPool.entries.Keys + {beneficiary}
      && Balance(r.value.heap, child.utxoPool, beneficiary) ==
         Balance(heap, parent.utxoPool, beneficiary) + COINBASE_REWARD
      && (forall o :: o != beneficiary ==>
            Balance(r.value.heap, child.utxoPool, o) == Balance(heap, parent.utxoPool, o))
      && Total(r.value.heap, child.utxoPool) == Total(heap, parent.utxoPool) + COINBASE_REWARD
  {
    var difficulty := AdjustDifficulty(parent);
    if difficulty.Failure? then Failure(difficulty.error)
    else
      var child := NewBlock(h, BlockOptions(parent.hash, parent.height + 1, Some(beneficiary), None,
                                            Some(Clone(parent.utxoPool)), None, Some(now),
                                            Some(difficulty.value)), now);
      var credited := AddUtxo(heap, child.utxoPool, beneficiary, COINBASE_REWARD);
      AddUtxoRaisesTotal(heap, child.utxoPool, beneficiary, COINBASE_REWARD);
      Success(Mined(credited.heap, child.(utxoPool := credited.pool)))
  }

  /** The subsidy credit goes through a shared entry object, so when the
      beneficiary already holds an entry in the parent's pool, the parent's
      balance rises by the subsidy as well. */
  lemma CreateChildAlsoCreditsParent(h: Hasher, heap: Heap, parent: Block, beneficiary: Owner, now: int)
    requires Wf(heap, parent.utxoPool) && IsRoot(parent)
    requires beneficiary in parent.utxoPool.entries
    ensures CreateChild(h, heap, parent, beneficiary, now).Success?
    ensures Balance(CreateChild(h, heap, parent, beneficiary, now).value.heap, parent.utxoPool, beneficiary) ==
            Balance(heap, parent.utxoPool, beneficiary) + COINBASE_REWARD
  {
    CloneSharesEntries(heap, parent.utxoPool, beneficiary, COINBASE_REWARD);
  }

  /** `isValidTransaction(transaction)` of a block: its pool accepts the
      transaction and the signature verifies. */
  predicate BlockIsValidTransaction(heap: Heap, b: Block, tx: Transaction) {
    IsValidTransaction(heap, b.utxoPool, tx) && HasValidSignature(tx)
  }

  /** `addingTransactionErrorMessage(transaction)` of a block: the signature
      is checked first, then the pool's diagnosis applies. */
  function BlockErrorMessage(heap: Heap, b: Block, tx: Transaction): (r: BlockTxError)
    ensures r == InvalidSignature <==> !HasValidSignature(tx)
    ensures HasValidSignature(tx) ==> r == PoolRejects(ErrorMessage(heap, b.utxoPool, tx))
  {
    if !HasValidSignature(tx) then InvalidSignature
    else PoolRejects(ErrorMessage(heap, b.utxoPool, tx))
  }

  /** The block's diagnosis is "Unknown error" exactly for the transactions
      `addTransaction` would accept. */
  lemma BlockErrorMessageUnknownIffValid(heap: Heap, b: Block, tx: Transaction)
    ensures BlockErrorMessage(heap, b, tx) == PoolRejects(UnknownError) <==> BlockIsValidTransaction(heap, b, tx)
  {
    ErrorMessageUnknownIffValid(heap, b.utxoPool, tx);
  }

  /** `addTransaction(transaction)`: silently ignores a transaction the block
      would not accept; otherwise records it under its hash, applies it to the
      pool with the beneficiary receiving the fee, and refreshes the hash. */
  function AddTransaction(h: Hasher, heap: Heap, b: Block, tx: Transaction): (r: Mined)
    requires Wf(heap, b.utxoPool)
    ensures Wf(r.heap, r.block.utxoPool) && Grows(heap, r.heap)
    ensures !BlockIsValidTransaction(heap, b, tx) ==> r == Mined(heap, b)
    ensures BlockIsValidTransaction(heap, b, tx) ==>
      && r.block == b.(transactions := r.block.transactions, utxoPool := r.block.utxoPool, hash := r.block.hash)
      && Get(r.block.transactions, tx.hash) == Some(tx)
      && (forall k :: k != tx.hash ==> Get(r.block.transactions, k) == Get(b.transactions, k))
      && r.block.hash == CalculateHash(h, r.block)
      && (forall o :: Balance(r.heap, r.block.utxoPool, o) ==
            Balance(heap, b.utxoPool, o)
            - (if o == tx.inputPublicKey then tx.amount + tx.fee else 0.0)
            + (if o == tx.outputPublicKey then tx.amount else 0.0)
            + (if o == b.coinbaseBeneficiary then tx.fee else 0.0))
      && Total(r.heap, r.block.utxoPool) == Total(heap, b.utxoPool)
      && (forall id :: id in heap.amounts && NotHeldByAny(b.utxoPool, id, tx.inputPublicKey, tx.outputPublicKey, b.coinbaseBeneficiary) ==>
            id in r.heap.amounts && r.heap.amounts[id] == heap.amounts[id])
      && KeepsOrFresh(heap, b.utxoPool, r.block.utxoPool)
  {
    if !BlockIsValidTransaction(heap, b, tx) then Mined(heap, b)
    else
      var applied := Apply(heap, b.utxoPool, tx, b.coinbaseBeneficiary);
      GetAfterPut(b.transactions, tx.hash, tx);
      var b' := b.(transactions := Put(b.transactions, tx.hash, tx), utxoPool := applied.pool);
      Mined(applied.heap, b'.(hash := CalculateHash(h, b')))
  }

  /** `setNonce(nonce)`: the mining step. */
  function SetNonce(h: Hasher, b: Block, nonce: string): (r: Block)
    ensures r == b.(nonce := nonce, hash := r.hash)
    ensures r.hash == CalculateHash(h, r)
  {
    var b' := b.(nonce := nonce);
    b'.(hash := CalculateHash(h, b'))
  }

  /** After `setNonce` the hash is current, so a mined block is valid exactly
      when the fresh hash has enough trailing zeros. */
  lemma SetNonceValidIff(h: Hasher, b: Block, nonce: string)
    requires b.difficulty >= 1
    ensures IsValid(h, SetNonce(h, b, nonce)) <==>
            IsRoot(b) || HasTrailingZeros(CalculateHash(h, b.(nonce := nonce)), b.difficulty)
  {
    var r := SetNonce(h, b, nonce);
    SuffixCheckIsTrailingZeros(r.hash, r.difficulty);
    HashIgnoresPoolAndCache(h, b.(nonce := nonce), b.utxoPool, r.hash, b.blockId);
  }

  /** The wire form of a block: every field except the pool. */
  datatype BlockJson = BlockJson(
    hash: string,
    blockId: string,
    nonce: string,
    parentHash: string,
    height: int,
    coinbaseBeneficiary: Owner,
    timestamp: int,
    difficulty: nat,
    transactions: Dict<Transaction>)

  /** `toJSON()` */
  function ToJson(b: Block): BlockJson {
    BlockJson(b.hash, b.blockId, b.nonce, b.parentHash, b.height, b.coinbaseBeneficiary,
              b.timestamp, b.difficulty, b.transactions)
  }

  /** `blockFromJSON(blockchain, data)`: the constructor reads neither `hash`
      nor `blockID` from the data, so both are recomputed, and the pool
      starts empty. The timestamp is always present, so the clock reading
      the constructor would default to plays no part. */
  function BlockFromJson(h: Hasher, j: BlockJson): (b: Block)
    ensures b.hash == CalculateHash(h, b)
    ensures b.utxoPool == Pool(map[])
    ensures b.blockId == GenerateBlockId(h, j.height)
  {
    NewBlock(h, BlockOptions(j.parentHash, j.height, Some(j.coinbaseBeneficiary), Some(j.nonce), None,
                             Some(j.transactions), Some(j.timestamp), Some(j.difficulty)), j.timestamp)
  }

  /** The hash and ID a peer sends are never trusted. */
  lemma BlockFromJsonIgnoresHashAndId(h: Hasher, j: BlockJson, hash: string, id: string)
    ensures BlockFromJson(h, j.(hash := hash, blockId := id)) == BlockFromJson(h, j)
  {
  }

  /** Sending a block and reading it back keeps every field except the pool,
      which starts empty, and the hash, which is recomputed; a valid block
      arrives valid, with its hash intact. */
  lemma JsonRoundTrip(h: Hasher, b: Block)
    ensures var b' := BlockFromJson(h, ToJson(b));
      && b' == b.(utxoPool := Pool(map[]), hash := b'.hash, blockId := b'.blockId)
      && b'.hash == CalculateHash(h, b)
      && (b.hash == CalculateHash(h, b) ==> b'.hash == b.hash)
      && (IsValid(h, b) ==> IsValid(h, b'))
  {
    var b' := BlockFromJson(h, ToJson(b));
    HashIgnoresPoolAndCache(h, b, Pool(map[]), b'.hash, b'.blockId);
  }
}

=== FILE: blockchain.dfy ===
/** The block tree: all known blocks keyed by hash, the genesis block, and
    the transactions announced but not yet mined. Covers genesis creation,
    longest-chain selection, block acceptance and chain validation. */
module Blockchain {
  import opened Wrappers
  import opened Digest
  import opened JsObject
  import opened Transactions
  import opened UtxoPool
  import opened Blocks

  datatype Chain = Chain(
    name: string,
    genesis: Block,
    blocks: Dict<Block>,
    pendingTransactions: Dict<Transaction>)

  /** Which `return` of `_addBlock` was taken. */
  datatype Verdict =
    | InvalidProof          // !block.isValid()
    | AlreadyKnown          // this.containsBlock(block)
    | UnknownParent         // !parent
    | HeightMismatch        // parent.height + 1 !== block.height
    | DifficultyMismatch    // block.difficulty !== this._calculateDifficulty(block)
    | InvalidTransactions   // containsInvalidTransactions
    | Accepted              // stored in this.blocks

  /** State after `_addBlock`: the verdict, the entry objects, the chain, and
      the candidate block object as the call left it. */
  datatype AddOutcome = AddOutcome(verdict: Verdict, heap: Heap, chain: Chain, candidate: Block)

  /** `createGenesisBlock()`'s block. `now` is the clock reading. */
  function GenesisBlock(h: Hasher, name: string, now: int): (g: Block)
    ensures g.height == 1 && IsRoot(g) && g.difficulty == INITIAL_DIFFICULTY
    ensures g.nonce == name && g.coinbaseBeneficiary == ROOT && g.timestamp == now
    ensures g.utxoPool == Pool(map[]) && |g.transactions.keys| == 0
    ensures g.hash == CalculateHash(h, g)
  {
    NewBlock(h, BlockOptions(ROOT, 1, Some(ROOT), Some(name), None, None, None, Some(2)), now)
  }

  /** `new Blockchain(name)`: the genesis block is the only block and nothing
      is pending. */
  function NewChain(h: Hasher, name: string, now: int): (c: Chain)
    ensures c.name == name && c.genesis == GenesisBlock(h, name, now)
    ensures c.blocks.keys == [c.genesis.hash] && c.blocks.vals == map[c.genesis.hash := c.genesis]
    ensures |c.pendingTransactions.keys| == 0
  {
    var g := GenesisBlock(h, name, now);
    Chain(name, g, Put(Empty(), g.hash, g), Empty())
  }

  /** `containsBlock(block)` */
  predicate ContainsBlock(c: Chain, b: Block) {
    b.hash in c.blocks.vals
  }

  /** Ramda's `maxBy(prop("height"))`: on equal heights the second argument
      wins. */
  function MaxByHeight(a: Block, b: Block): (r: Block)
    ensures r == a || r == b
    ensures r.height >= a.height && r.height >= b.height
  {
    if b.height >= a.height then b else a
  }

  /** `reduce(maxByHeight, acc, blocks)` */
  function FoldMaxHeight(acc: Block, blocks: seq<Block>): (r: Block)
    ensures r == acc || r in blocks
    ensures r.height >= acc.height
    ensures forall i :: 0 <= i < |blocks| ==> blocks[i].height <= r.height
    decreases |blocks|
  {
    if blocks == [] then acc
    else FoldMaxHeight(MaxByHeight(acc, blocks[0]), blocks[1..])
  }

  /** `maxHeightBlock()`: null only for an empty block map, otherwise some
      stored block of maximal height. */
  function MaxHeightBlock(c: Chain): (r: Option<Block>)
    ensures r.None? <==> |c.blocks.keys| == 0
    ensures r.Some? ==> r.value in Values(c.blocks)
    ensures r.Some? ==> forall b :: b in Values(c.blocks) ==> b.height <= r.value.height
  {
    var blocks := Values(c.blocks);
    if |blocks| == 0 then None else Some(FoldMaxHeight(blocks[0], blocks))
  }

  /** Shape of a well-formed block tree: the genesis block (height 1, root,
      initial difficulty) is stored, no block is stored under the genesis
      marker, every block is stored under its own hash, and every other
      block's parent is stored exactly one level lower. */
  ghost predicate Linked(c: Chain) {
    var vals := c.blocks.vals;
    && c.genesis.hash in vals && vals[c.genesis.hash] == c.genesis
    && c.genesis.height == 1 && IsRoot(c.genesis) && c.genesis.difficulty == INITIAL_DIFFICULTY
    && ROOT !in vals
    && (forall k :: k in vals ==> vals[k].hash == k && vals[k].height >= 1)
    && (forall k :: k in vals && k != c.genesis.hash ==>
          vals[k].parentHash in vals && vals[vals[k].parentHash].height + 1 == vals[k].height)
  }

  /** A stored block is the value under its own hash. */
  ghost predicate Stored(c: Chain, b: Block) {
    b.hash in c.blocks.vals && c.blocks.vals[b.hash] == b
  }

  /** The parent-link walk of `longestChain`, genesis first: its length is
      the block's height, it starts at genesis, and each block is the parent
      of the next. Height decreases along the walk, so it ends. */
  function Walk(c: Chain, b: Block): (r: seq<Block>)
    requires Linked(c) && Stored(c, b)
    ensures |r| == b.height
    ensures r[0] == c.genesis && r[|r| - 1] == b
    ensures forall i :: 0 <= i < |r| ==> Stored(c, r[i]) && r[i].height == i + 1
    ensures forall i :: 0 <= i < |r| - 1 ==> r[i + 1].parentHash == r[i].hash
    decreases b.height
  {
    if b.parentHash in c.blocks.vals then
      Walk(c, c.blocks.vals[b.parentHash]) + [b]
    else
      [b]
  }

  /** `longestChain()`: the walk from a block of maximal height back to
      genesis, genesis first. */
  function LongestChain(c: Chain): (r: seq<Block>)
    requires Linked(c)
    ensures MaxHeightBlock(c).Some?
    ensures |r| == MaxHeightBlock(c).value.height
    ensures r[0] == c.genesis && r[|r| - 1] == MaxHeightBlock(c).value
    ensures forall i :: 0 <= i < |r| ==> Stored(c, r[i]) && r[i].height == i + 1
    ensures forall i :: 0 <= i < |r| - 1 ==> r[i + 1].parentHash == r[i].hash
  {
    assert c.genesis.hash in c.blocks.keys;
    var top := MaxHeightBlock(c).value;
    ValuesAreStored(c.blocks, top);
    Walk(c, top)
  }

  /** `validateChain()`: every block of the longest chain passes `isValid`. */
  method ValidateChain(h: Hasher, c: Chain) returns (ok: bool)
    requires Linked(c)
    ensures ok <==> forall i :: 0 <= i < |LongestChain(c)| ==> IsValid(h, LongestChain(c)[i])
  {
    var chain := LongestChain(c);
    ok := AllValid(h, chain);
  }

  /** The loop of `validateChain`: stops at the first invalid block. */
  method AllValid(h: Hasher, chain: seq<Block>) returns (ok: bool)
    ensures ok <==> forall i :: 0 <= i < |chain| ==> IsValid(h, chain[i])
  {
    var i := 0;
    while i < |chain|
      invariant 0 <= i <= |chain|
      invariant forall j :: 0 <= j < i ==> IsValid(h, chain[j])
    {
      if !IsValid(h, chain[i]) {
        return false;
      }
      i := i + 1;
    }
    return true;
  }

  /** `_calculateDifficulty(block)`: the initial difficulty for no block or a
      root block, otherwise the retarget rule applied to the stored parent's
      difficulty and the time since the parent. */
  function CalculateDifficulty(c: Chain, block: Option<Block>): (r: nat)
    requires block.Some? && !IsRoot(block.value) ==> block.value.parentHash in c.blocks.vals
    ensures block.None? || IsRoot(block.value) ==> r == INITIAL_DIFFICULTY
    ensures block.Some? && !IsRoot(block.value) ==>
              var parent := c.blocks.vals[block.value.parentHash];
              && r == RetargetRule(parent.difficulty, block.value.timestamp - parent.timestamp)
              && (parent.difficulty >= 1 ==> r >= 1)
  {
    if block.None? || IsRoot(block.value) then INITIAL_DIFFICULTY
    else
      var parent := c.blocks.vals[block.value.parentHash];
      RetargetRule(parent.difficulty, block.value.timestamp - parent.timestamp)
  }

  /** The first four gates of `_addBlock`, in order: the first that fails,
      or `Accepted` when all pass. */
  function Screen(h: Hasher, c: Chain, b: Block): (v: Verdict)
    ensures v != InvalidTransactions
    ensures v == InvalidProof <==> !IsValid(h, b)
    ensures v == AlreadyKnown <==> IsValid(h, b) && ContainsBlock(c, b)
    ensures v == UnknownParent <==> IsValid(h, b) && !ContainsBlock(c, b) && b.parentHash !in c.blocks.vals
    ensures v == HeightMismatch <==>
              && IsValid(h, b) && !ContainsBlock(c, b) && b.parentHash in c.blocks.vals
              && c.blocks.vals[b.parentHash].height + 1 != b.height
    ensures v == DifficultyMismatch <==>
              && IsValid(h, b) && !ContainsBlock(c, b) && b.parentHash in c.blocks.vals
              && c.blocks.vals[b.parentHash].height + 1 == b.height
              && b.difficulty != CalculateDifficulty(c, Some(b))
  {
    if !IsValid(h, b) then InvalidProof
    else if ContainsBlock(c, b) then AlreadyKnown
    else if b.parentHash !in c.blocks.vals then UnknownParent
    else if c.blocks.vals[b.parentHash].height + 1 != b.height then HeightMismatch
    else if b.difficulty != CalculateDifficulty(c, Some(b)) then DifficultyMismatch
    else Accepted
  }

  /** Every stored block's pool is well formed against the heap. */
  ghost predicate StoredPoolsWf(heap: Heap, c: Chain) {
    forall k :: k in c.blocks.vals ==> Wf(heap, c.blocks.vals[k].utxoPool)
  }

  /** The hashes of a sequence of transactions. */
  function Hashes(txs: seq<Transaction>): (r: set<string>)
    ensures forall i :: 0 <= i < |txs| ==> txs[i].hash in r
  {
    if txs == [] then {} else {txs[0].hash} + Hashes(txs[1..])
  }

  /** The summed balance change of a run of accepted transactions for one
      owner, with `feeReceiver` collecting the fees. */
  function Deltas(txs: seq<Transaction>, feeReceiver: Owner, o: Owner): real {
    if txs == [] then 0.0 else TxDelta(txs[0], feeReceiver, o) + Deltas(txs[1..], feeReceiver, o)
  }

  /** State of the re-application loop in `_addBlock`. */
  datatype Replay = Replay(heap: Heap, block: Block, pending: Dict<Transaction>, invalid: bool)

  /** One turn of the `forEach` in `_addBlock`: a transaction the block
      accepts is added to it and, when `dropPending`, deleted from the
      pending set at once; any other transaction sets the invalid flag. */
  function ReplayStep(h: Hasher, st: Replay, tx: Transaction, dropPending: bool): (r: Replay)
    requires Wf(st.heap, st.block.utxoPool)
    ensures Wf(r.heap, r.block.utxoPool) && Grows(st.heap, r.heap)
    ensures r.invalid <==> st.invalid || !BlockIsValidTransaction(st.heap, st.block, tx)
    ensures r.block == st.block.(transactions := r.block.transactions, utxoPool := r.block.utxoPool,
                                 hash := r.block.hash)
    ensures Total(r.heap, r.block.utxoPool) == Total(st.heap, st.block.utxoPool)
    ensures BlockIsValidTransaction(st.heap, st.block, tx) ==>
              && r.block.hash == CalculateHash(h, r.block)
              && r.block.transactions == Put(st.block.transactions, tx.hash, tx)
    ensures !BlockIsValidTransaction(st.heap, st.block, tx) ==> r == st.(invalid := true)
    ensures r.pending.vals.Keys <= st.pending.vals.Keys
    ensures forall k :: k in r.pending.vals ==> r.pending.vals[k] == st.pending.vals[k]
    ensures st.pending.vals.Keys - r.pending.vals.Keys <= {tx.hash}
    ensures !dropPending ==> r.pending == st.pending
    ensures dropPending && BlockIsValidTransaction(st.heap, st.block, tx) ==> tx.hash !in r.pending.vals
  {
    if BlockIsValidTransaction(st.heap, st.block, tx) then
      var added := AddTransaction(h, st.heap, st.block, tx);
      var pending := if dropPending && tx.hash in st.pending.vals then Remove(st.pending, tx.hash) else st.pending;
      Replay(added.heap, added.block, pending, st.invalid)
    else st.(invalid := true)
  }

  /** An accepted transaction moves each owner's balance by its delta. */
  lemma ReplayStepBalances(h: Hasher, st: Replay, tx: Transaction, dropPending: bool, o: Owner)
    requires Wf(st.heap, st.block.utxoPool)
    requires BlockIsValidTransaction(st.heap, st.block, tx)
    ensures Balance(ReplayStep(h, st, tx, dropPending).heap, ReplayStep(h, st, tx, dropPending).block.utxoPool, o) ==
            Balance(st.heap, st.block.utxoPool, o) + TxDelta(tx, st.block.coinbaseBeneficiary, o)
  {
  }

  /** The whole `forEach` of `_addBlock`, in the order of `Object.values`;
      the loop does not stop at an invalid transaction. */
  function Reapply(h: Hasher, st: Replay, txs: seq<Transaction>, dropPending: bool): (r: Replay)
    requires Wf(st.heap, st.block.utxoPool)
    ensures Wf(r.heap, r.block.utxoPool) && Grows(st.heap, r.heap)
    ensures st.invalid ==> r.invalid
    ensures r.block == st.block.(transactions := r.block.transactions, utxoPool := r.block.utxoPool,
                                 hash := r.block.hash)
    ensures Total(r.heap, r.block.utxoPool) == Total(st.heap, st.block.utxoPool)
    ensures !r.invalid && |txs| > 0 ==> r.block.hash == CalculateHash(h, r.block)
    ensures |txs| == 0 ==> r == st
    // pending transactions only ever leave, only carried ones, only when asked
    ensures r.pending.vals.Keys <= st.pending.vals.Keys
    ensures forall k :: k in r.pending.vals ==> r.pending.vals[k] == st.pending.vals[k]
    ensures st.pending.vals.Keys - r.pending.vals.Keys <= Hashes(txs)
    ensures !dropPending ==> r.pending == st.pending
    decreases |txs|
  {
    if txs == [] then st
    else
      var next := ReplayStep(h, st, txs[0], dropPending);
      Reapply(h, next, txs[1..], dropPending)
  }

  /** The owners a run of transactions can touch: every input and output,
      and the beneficiary who receives the fees. */
  function Parties(txs: seq<Transaction>, beneficiary: Owner): (r: set<Owner>)
    ensures beneficiary in r
    ensures forall i :: 0 <= i < |txs| ==> txs[i].inputPublicKey in r && txs[i].outputPublicKey in r
    ensures forall o :: o in r ==>
              o == beneficiary || exists i :: 0 <= i < |txs| && (o == txs[i].inputPublicKey || o == txs[i].outputPublicKey)
  {
    if txs == [] then {beneficiary}
    else {txs[0].inputPublicKey, txs[0].outputPublicKey} + Parties(txs[1..], beneficiary)
  }

  /** One turn of the loop changes only the entries the candidate's pool
      gives to the transaction's two owners and the beneficiary, and hands
      out only new entries. */
  lemma ReplayStepFrame(h: Hasher, st: Replay, tx: Transaction, dropPending: bool)
    requires Wf(st.heap, st.block.utxoPool)
    ensures var r := ReplayStep(h, st, tx, dropPending);
            && Untouched(st.heap, r.heap, Holding(st.block.utxoPool,
                 {tx.inputPublicKey, tx.outputPublicKey, st.block.coinbaseBeneficiary}))
            && KeepsOrFresh(st.heap, st.block.utxoPool, r.block.utxoPool)
  {
  }

  /** The whole loop changes only the entries the starting pool gives to the
      parties of the run, and hands out only new entries. */
  lemma {:induction false} ReapplyFrame(h: Hasher, st: Replay, txs: seq<Transaction>, dropPending: bool)
    requires Wf(st.heap, st.block.utxoPool)
    ensures var r := Reapply(h, st, txs, dropPending);
            && Untouched(st.heap, r.heap, Holding(st.block.utxoPool, Parties(txs, st.block.coinbaseBeneficiary)))
            && KeepsOrFresh(st.heap, st.block.utxoPool, r.block.utxoPool)
    decreases |txs|
  {
    if txs != [] {
      var ben := st.block.coinbaseBeneficiary;
      var next := ReplayStep(h, st, txs[0], dropPending);
      ReplayStepFrame(h, st, txs[0], dropPending);
      ReapplyFrame(h, next, txs[1..], dropPending);
      var r := Reapply(h, next, txs[1..], dropPending);
      assert Reapply(h, st, txs, dropPending) == r;
      var p0, p1 := st.block.utxoPool, next.block.utxoPool;
      var all, rest := Parties(txs, ben), Parties(txs[1..], ben);
      assert all == {txs[0].inputPublicKey, txs[0].outputPublicKey} + rest;
      forall id | id in st.heap.amounts && id !in Holding(p0, all)
        ensures id in r.heap.amounts && r.heap.amounts[id] == st.heap.amounts[id]
      {
        assert id !in Holding(p0, {txs[0].inputPublicKey, txs[0].outputPublicKey, ben});
        assert id in next.heap.amounts && next.heap.amounts[id] == st.heap.amounts[id];
        forall o | o in rest && o in p1.entries ensures p1.entries[o] != id {
          if o in p0.entries {
            assert p0.entries[o] in Holding(p0, all);
          }
        }
        assert id !in Holding(p1, rest);
      }
      forall o | o in r.block.utxoPool.entries
        ensures || r.block.utxoPool.entries[o] !in st.heap.amounts
                || (o in p0.entries && r.block.utxoPool.entries[o] == p0.entries[o])
      {
        if r.block.utxoPool.entries[o] in st.heap.amounts {
          assert r.block.utxoPool.entries[o] in next.heap.amounts;
        }
      }
    }
  }

  /** Every transaction of the run is accepted by the block as the loop
      leaves it just before that transaction. */
  predicate AcceptedInTurn(h: Hasher, st: Replay, txs: seq<Transaction>, dropPending: bool)
    requires Wf(st.heap, st.block.utxoPool)
  {
    forall i :: 0 <= i < |txs| ==>
      BlockIsValidTransaction(Reapply(h, st, txs[..i], dropPending).heap,
                              Reapply(h, st, txs[..i], dropPending).block, txs[i])
  }

  /** Taking one element more than a prefix, then dropping the head, is the
      prefix of the tail. */
  lemma PrefixThenTail<T>(s: seq<T>, j: nat)
    requires j < |s|
    ensures s[..j + 1] != [] && s[..j + 1][0] == s[0] && s[..j + 1][1..] == s[1..][..j]
  {
  }

  /** The loop state before transaction `j + 1` is the state before
      transaction `j` of the rest of the run, started after the first. */
  lemma ReapplyPrefixStep(h: Hasher, st: Replay, txs: seq<Transaction>, j: nat, dropPending: bool)
    requires Wf(st.heap, st.block.utxoPool)
    requires j < |txs|
    ensures Reapply(h, st, txs[..j + 1], dropPending) ==
            Reapply(h, ReplayStep(h, st, txs[0], dropPending), txs[1..][..j], dropPending)
  {
    PrefixThenTail(txs, j);
  }

  /** A run accepted in turn has its first transaction accepted and the
      rest accepted in turn from the state after it. */
  lemma AcceptedInTurnSplits(h: Hasher, st: Replay, txs: seq<Transaction>, dropPending: bool)
    requires Wf(st.heap, st.block.utxoPool)
    requires |txs| > 0 && AcceptedInTurn(h, st, txs, dropPending)
    ensures BlockIsValidTransaction(st.heap, st.block, txs[0])
    ensures AcceptedInTurn(h, ReplayStep(h, st, txs[0], dropPending), txs[1..], dropPending)
  {
    var next := ReplayStep(h, st, txs[0], dropPending);
    var rest := txs[1..];
    assert txs[..0] == [];
    assert Reapply(h, st, txs[..0], dropPending) == st;
    forall j | 0 <= j < |rest|
      ensures BlockIsValidTransaction(Reapply(h, next, rest[..j], dropPending).heap,
                                      Reapply(h, next, rest[..j], dropPending).block, rest[j])
    {
      ReapplyPrefixStep(h, st, txs, j, dropPending);
      assert rest[j] == txs[j + 1];
      assert BlockIsValidTransaction(Reapply(h, st, txs[..j + 1], dropPending).heap,
                                     Reapply(h, st, txs[..j + 1], dropPending).block, txs[j + 1]);
    }
  }

  /** Conversely, an accepted first transaction followed by a rest accepted
      in turn makes the whole run accepted in turn. */
  lemma AcceptedInTurnJoins(h: Hasher, st: Replay, txs: seq<Transaction>, dropPending: bool)
    requires Wf(st.heap, st.block.utxoPool)
    requires |txs| > 0 && BlockIsValidTransaction(st.heap, st.block, txs[0])
    requires AcceptedInTurn(h, ReplayStep(h, st, txs[0], dropPending), txs[1..], dropPending)
    ensures AcceptedInTurn(h, st, txs, dropPending)
  {
    forall i | 0 <= i < |txs|
      ensures BlockIsValidTransaction(Reapply(h, st, txs[..i], dropPending).heap,
                                      Reapply(h, st, txs[..i], dropPending).block, txs[i])
    {
      if i == 0 {
        assert txs[..0] == [];
        assert Reapply(h, st, txs[..0], dropPending) == st;
      } else {
        AcceptedAfterFirst(h, st, txs, i, dropPending);
      }
    }
  }

  /** Position `i > 0` of a run sits at position `i - 1` of its tail, so
      acceptance of the tail in turn covers it. */
  lemma AcceptedAfterFirst(h: Hasher, st: Replay, txs: seq<Transaction>, i: nat, dropPending: bool)
    requires Wf(st.heap, st.block.utxoPool)
    requires 0 < i < |txs|
    requires AcceptedInTurn(h, ReplayStep(h, st, txs[0], dropPending), txs[1..], dropPending)
    ensures BlockIsValidTransaction(Reapply(h, st, txs[..i], dropPending).heap,
                                    Reapply(h, st, txs[..i], dropPending).block, txs[i])
  {
    var next := ReplayStep(h, st, txs[0], dropPending);
    var rest := txs[1..];
    var j := i - 1;
    assert txs[..j + 1] == txs[..i];
    ReapplyPrefixStep(h, st, txs, j, dropPending);
    AcceptedAt(h, next, rest, j, dropPending);
    assert rest[j] == txs[i];
  }

  /** Acceptance in turn, read at one position. */
  lemma AcceptedAt(h: Hasher, st: Replay, txs: seq<Transaction>, j: nat, dropPending: bool)
    requires Wf(st.heap, st.block.utxoPool)
    requires j < |txs| && AcceptedInTurn(h, st, txs, dropPending)
    ensures BlockIsValidTransaction(Reapply(h, st, txs[..j], dropPending).heap,
                                    Reapply(h, st, txs[..j], dropPending).block, txs[j])
  {
  }

  /** The loop ends flagged exactly when it started flagged or some
      transaction was rejected by the block as the loop had left it. */
  lemma {:induction false} ReapplyFlagsRejection(h: Hasher, st: Replay, txs: seq<Transaction>, dropPending: bool)
    requires Wf(st.heap, st.block.utxoPool)
    ensures Reapply(h, st, txs, dropPending).invalid <==> st.invalid || !AcceptedInTurn(h, st, txs, dropPending)
    decreases |txs|
  {
    if txs != [] {
      var next := ReplayStep(h, st, txs[0], dropPending);
      ReapplyFlagsRejection(h, next, txs[1..], dropPending);
      if AcceptedInTurn(h, st, txs, dropPending) {
        AcceptedInTurnSplits(h, st, txs, dropPending);
      } else if BlockIsValidTransaction(st.heap, st.block, txs[0]) &&
                AcceptedInTurn(h, next, txs[1..], dropPending) {
        AcceptedInTurnJoins(h, st, txs, dropPending);
      }
      assert Reapply(h, st, txs, dropPending) == Reapply(h, next, txs[1..], dropPending);
    }
  }

  /** When the whole run is accepted, every owner's balance has moved by
      the summed effect of the run, the fees going to the beneficiary. */
  lemma {:induction false} ReapplyBalances(h: Hasher, st: Replay, txs: seq<Transaction>, dropPending: bool, o: Owner)
    requires Wf(st.heap, st.block.utxoPool)
    ensures var r := Reapply(h, st, txs, dropPending);
            !r.invalid ==>
              Balance(r.heap, r.block.utxoPool, o) ==
              Balance(st.heap, st.block.utxoPool, o) + Deltas(txs, st.block.coinbaseBeneficiary, o)
    decreases |txs|
  {
    if txs != [] {
      var next := ReplayStep(h, st, txs[0], dropPending);
      var r := Reapply(h, next, txs[1..], dropPending);
      assert r == Reapply(h, st, txs, dropPending);
      if !r.invalid {
        assert !next.invalid;
        ReplayStepBalances(h, st, txs[0], dropPending, o);
        ReapplyBalances(h, next, txs[1..], dropPending, o);
      }
    }
  }

  /** No two of the transactions share a hash. */
  predicate DistinctHashes(txs: seq<Transaction>) {
    forall i, j :: 0 <= i < j < |txs| ==> txs[i].hash != txs[j].hash
  }

  /** Appending the head and then the tail appends the whole sequence. */
  lemma AppendHeadThenTail<T>(a: seq<T>, s: seq<T>)
    requires |s| > 0
    ensures (a + [s[0]]) + s[1..] == a + s
  {
    assert s == [s[0]] + s[1..];
  }

  /** When every transaction is accepted, the rebuilt transaction map lists
      them after the ones already there, in carried order, provided none of
      their hashes repeats or is already present. */
  lemma {:induction false} ReapplyRecordsInOrder(h: Hasher, st: Replay, txs: seq<Transaction>, dropPending: bool)
    requires Wf(st.heap, st.block.utxoPool)
    requires DistinctHashes(txs)
    requires forall i :: 0 <= i < |txs| ==> txs[i].hash !in st.block.transactions.vals
    ensures !Reapply(h, st, txs, dropPending).invalid ==>
              Values(Reapply(h, st, txs, dropPending).block.transactions) == Values(st.block.transactions) + txs
    decreases |txs|
  {
    if txs != [] {
      var next := ReplayStep(h, st, txs[0], dropPending);
      var rest := txs[1..];
      var r := Reapply(h, next, rest, dropPending);
      assert r == Reapply(h, st, txs, dropPending);
      if !r.invalid {
        assert !next.invalid;
        assert next.block.transactions == Put(st.block.transactions, txs[0].hash, txs[0]);
        ValuesOfFreshPut(st.block.transactions, txs[0].hash, txs[0]);
        assert Values(next.block.transactions) == Values(st.block.transactions) + [txs[0]];
        forall i | 0 <= i < |rest| ensures rest[i].hash !in next.block.transactions.vals {
          assert rest[i] == txs[i + 1];
        }
        assert DistinctHashes(rest) by {
          forall i, j | 0 <= i < j < |rest| ensures rest[i].hash != rest[j].hash {
            assert rest[i] == txs[i + 1] && rest[j] == txs[j + 1];
          }
        }
        ReapplyRecordsInOrder(h, next, rest, dropPending);
        assert Values(r.block.transactions) == Values(next.block.transactions) + rest;
        AppendHeadThenTail(Values(st.block.transactions), txs);
      }
    }
  }

  /** The candidate at the start of the loop in `_addBlock`: its pool is a
      clone of the parent's credited with the subsidy, its transactions are
      emptied, and nothing has been found invalid. */
  function StartReplay(heap: Heap, c: Chain, b: Block): (st: Replay)
    requires b.parentHash in c.blocks.vals
    requires Wf(heap, c.blocks.vals[b.parentHash].utxoPool)
    ensures var parent := c.blocks.vals[b.parentHash];
            && Wf(st.heap, st.block.utxoPool) && Grows(heap, st.heap)
            && st.block == b.(utxoPool := st.block.utxoPool, transactions := Empty())
            && st.block.utxoPool.entries.Keys == parent.utxoPool.entries.Keys + {b.coinbaseBeneficiary}
            && Total(st.heap, st.block.utxoPool) == Total(heap, parent.utxoPool) + COINBASE_REWARD
            && st.pending == c.pendingTransactions && !st.invalid
  {
    var parent := c.blocks.vals[b.parentHash];
    var credited := AddUtxo(heap, Clone(parent.utxoPool), b.coinbaseBeneficiary, COINBASE_REWARD);
    AddUtxoRaisesTotal(heap, Clone(parent.utxoPool), b.coinbaseBeneficiary, COINBASE_REWARD);
    Replay(credited.heap, b.(utxoPool := credited.pool, transactions := Empty()), c.pendingTransactions, false)
  }

  /** The rebuild starts from the parent's balances with the subsidy
      credited to the beneficiary and to no one else. */
  lemma StartReplayBalances(heap: Heap, c: Chain, b: Block, o: Owner)
    requires b.parentHash in c.blocks.vals
    requires Wf(heap, c.blocks.vals[b.parentHash].utxoPool)
    ensures var st := StartReplay(heap, c, b);
            Balance(st.heap, st.block.utxoPool, o) ==
            Balance(heap, c.blocks.vals[b.parentHash].utxoPool, o)
            + (if o == b.coinbaseBeneficiary then COINBASE_REWARD else 0.0)
  {
  }

  /** Whether the parent is the block `maxHeightBlock()` returns; only then
      are re-applied transactions dropped from the pending set. */
  predicate ParentIsTip(c: Chain, b: Block)
    requires b.parentHash in c.blocks.vals
  {
    var top := MaxHeightBlock(c);
    top.Some? && top.value.hash == c.blocks.vals[b.parentHash].hash
  }

  /** The part of `_addBlock` after the gates: rebuild the candidate's pool
      and transactions from the parent, then store it unless a carried
      transaction failed. */
  function Settle(h: Hasher, heap: Heap, c: Chain, b: Block): (r: AddOutcome)
    requires b.parentHash in c.blocks.vals
    requires Wf(heap, c.blocks.vals[b.parentHash].utxoPool)
    ensures var parent := c.blocks.vals[b.parentHash];
            && (r.verdict == Accepted || r.verdict == InvalidTransactions)
            && Wf(r.heap, r.candidate.utxoPool) && Grows(heap, r.heap)
            && r.candidate == b.(utxoPool := r.candidate.utxoPool, transactions := r.candidate.transactions,
                                 hash := r.candidate.hash)
            && Total(r.heap, r.candidate.utxoPool) == Total(heap, parent.utxoPool) + COINBASE_REWARD
            && r.chain == c.(blocks := r.chain.blocks, pendingTransactions := r.chain.pendingTransactions)
            && (r.verdict == InvalidTransactions ==> r.chain.blocks == c.blocks)
            && (r.verdict == Accepted ==> r.chain.blocks == Put(c.blocks, r.candidate.hash, r.candidate))
            && (r.verdict == Accepted && |b.transactions.keys| > 0 ==> r.candidate.hash == CalculateHash(h, r.candidate))
            && (|b.transactions.keys| == 0 ==> r.verdict == Accepted && r.candidate.hash == b.hash)
            && r.chain.pendingTransactions.vals.Keys <= c.pendingTransactions.vals.Keys
            && (forall k :: k in r.chain.pendingTransactions.vals ==>
                  r.chain.pendingTransactions.vals[k] == c.pendingTransactions.vals[k])
            && c.pendingTransactions.vals.Keys - r.chain.pendingTransactions.vals.Keys <= Hashes(Values(b.transactions))
            && (!ParentIsTip(c, b) ==> r.chain.pendingTransactions == c.pendingTransactions)
  {
    var start := StartReplay(heap, c, b);
    var done := Reapply(h, start, Values(b.transactions), ParentIsTip(c, b));
    var chain := c.(pendingTransactions := done.pending);
    if done.invalid then AddOutcome(InvalidTransactions, done.heap, chain, done.block)
    else AddOutcome(Accepted, done.heap, chain.(blocks := Put(c.blocks, done.block.hash, done.block)), done.block)
  }

  /** Every stored block's pool is well formed; needed so the parent's pool
      can be cloned and credited. */
  ghost predicate PoolsReady(heap: Heap, c: Chain) {
    HeapWf(heap) && StoredPoolsWf(heap, c)
  }

  /** `_addBlock(block)`: the gates in order, each returning with nothing
      changed; then the rebuild. The outcome also carries the candidate as
      the call leaves it, since a rejected candidate keeps its rebuilt pool
      and transactions. */
  function AddBlock(h: Hasher, heap: Heap, c: Chain, b: Block): (r: AddOutcome)
    requires PoolsReady(heap, c)
    ensures Screen(h, c, b) != Accepted ==> r == AddOutcome(Screen(h, c, b), heap, c, b)
    ensures Screen(h, c, b) == Accepted ==> r.verdict == Accepted || r.verdict == InvalidTransactions
    ensures r.chain.name == c.name && r.chain.genesis == c.genesis
    ensures r.verdict != Accepted ==> r.chain.blocks == c.blocks
    ensures ContainsBlock(c, b) ==> r.chain == c && r.heap == heap
    ensures HeapWf(r.heap) && Grows(heap, r.heap)
    ensures r.verdict == Accepted ==>
              && b.parentHash in c.blocks.vals
              && r.chain.blocks == Put(c.blocks, r.candidate.hash, r.candidate)
              && r.candidate == b.(utxoPool := r.candidate.utxoPool, transactions := r.candidate.transactions,
                                   hash := r.candidate.hash)
              && Wf(r.heap, r.candidate.utxoPool)
              && Total(r.heap, r.candidate.utxoPool) ==
                 Total(heap, c.blocks.vals[b.parentHash].utxoPool) + COINBASE_REWARD
    ensures r.chain.pendingTransactions.vals.Keys <= c.pendingTransactions.vals.Keys
    ensures c.pendingTransactions.vals.Keys - r.chain.pendingTransactions.vals.Keys <= Hashes(Values(b.transactions))
  {
    var gate := Screen(h, c, b);
    if gate != Accepted then AddOutcome(gate, heap, c, b)
    else Settle(h, heap, c, b)
  }

  /** What every reachable chain satisfies: a linked tree, pools well formed
      against the entry objects, and only valid blocks stored. */
  ghost predicate ChainInv(h: Hasher, heap: Heap, c: Chain) {
    && Linked(c)
    && PoolsReady(heap, c)
    && (forall k :: k in c.blocks.vals ==> IsValid(h, c.blocks.vals[k]))
  }

  /** A new chain satisfies the invariant, given a digest that is not the
      genesis marker itself. */
  lemma NewChainSatisfiesInvariant(h: Hasher, heap: Heap, name: string, now: int)
    requires HeapWf(heap)
    requires GenesisBlock(h, name, now).hash != ROOT
    ensures ChainInv(h, heap, NewChain(h, name, now))
  {
  }

  /** An accepted block is stored under the hash it arrived with, and stays
      valid, when its transactions have distinct hashes: the rebuild puts
      back the same transactions in the same order, so the recomputed hash
      is the one the proof of work was done on. */
  lemma AcceptedKeepsHash(h: Hasher, heap: Heap, c: Chain, b: Block)
    requires ChainInv(h, heap, c)
    requires DistinctHashes(Values(b.transactions))
    requires AddBlock(h, heap, c, b).verdict == Accepted
    ensures !IsRoot(b)
    ensures AddBlock(h, heap, c, b).candidate.hash == b.hash
    ensures IsValid(h, AddBlock(h, heap, c, b).candidate)
  {
    assert Screen(h, c, b) == Accepted;
    AfterGates(h, heap, c, b);
    var txs := Values(b.transactions);
    var start := StartReplay(heap, c, b);
    var cand := Reapply(h, start, txs, ParentIsTip(c, b)).block;
    if |b.transactions.keys| > 0 {
      assert HashInput(h, cand) == HashInput(h, b) by {
        ReapplyRecordsInOrder(h, start, txs, ParentIsTip(c, b));
        assert Values(cand.transactions) == txs;
        assert CombinedTransactionsHash(h, cand.transactions) == CombinedTransactionsHash(h, b.transactions);
      }
    }
    ValidHashIsNotRootMarker(h, b);
  }

  /** Inserting a fresh block whose parent is stored one level lower keeps
      the tree linked. */
  lemma LinkedAfterInsert(c: Chain, cand: Block)
    requires Linked(c)
    requires cand.hash !in c.blocks.vals && cand.hash != ROOT
    requires cand.parentHash in c.blocks.vals
    requires c.blocks.vals[cand.parentHash].height + 1 == cand.height
    ensures Linked(c.(blocks := Put(c.blocks, cand.hash, cand)))
  {
  }

  /** `_addBlock` keeps the chain invariant, when the carried transactions
      have distinct hashes. */
  lemma AddBlockKeepsInvariant(h: Hasher, heap: Heap, c: Chain, b: Block)
    requires ChainInv(h, heap, c)
    requires DistinctHashes(Values(b.transactions))
    ensures ChainInv(h, AddBlock(h, heap, c, b).heap, AddBlock(h, heap, c, b).chain)
  {
    var r := AddBlock(h, heap, c, b);
    forall k | k in c.blocks.vals ensures Wf(r.heap, c.blocks.vals[k].utxoPool) {
      WfInGrownHeap(heap, r.heap, c.blocks.vals[k].utxoPool);
    }
    if r.verdict == Accepted {
      assert Screen(h, c, b) == Accepted;
      AcceptedKeepsHash(h, heap, c, b);
      ValidHashIsNotRootMarker(h, b);
      LinkedAfterInsert(c, r.candidate);
      assert r.chain.blocks.vals == c.blocks.vals[r.candidate.hash := r.candidate];
      var vals := r.chain.blocks.vals;
      assert Linked(r.chain);
      forall k | k in vals ensures Wf(r.heap, vals[k].utxoPool) && IsValid(h, vals[k]) {
        if k != r.candidate.hash {
          assert vals[k] == c.blocks.vals[k];
        }
      }
    } else {
      assert r.chain.blocks == c.blocks && r.chain.genesis == c.genesis;
    }
  }

  /** Under the invariant, `validateChain()` holds. */
  lemma InvariantChainValidates(h: Hasher, heap: Heap, c: Chain)
    requires ChainInv(h, heap, c)
    ensures forall i :: 0 <= i < |LongestChain(c)| ==> IsValid(h, LongestChain(c)[i])
  {
    var chain := LongestChain(c);
    forall i | 0 <= i < |chain| ensures IsValid(h, chain[i]) {
      assert Stored(c, chain[i]);
    }
  }

  /** The pool a proposer attached to a block plays no part in `_addBlock`:
      verdict, entry objects and chain come out the same. */
  lemma AddBlockIgnoresProposedPool(h: Hasher, heap: Heap, c: Chain, b: Block, proposed: Pool)
    requires PoolsReady(heap, c)
    ensures var r1 := AddBlock(h, heap, c, b.(utxoPool := proposed));
            var r2 := AddBlock(h, heap, c, b);
            r1.verdict == r2.verdict && r1.heap == r2.heap && r1.chain == r2.chain
  {
    var b' := b.(utxoPool := proposed);
    HashIgnoresPoolAndCache(h, b, proposed, b.hash, b.blockId);
    assert Screen(h, c, b') == Screen(h, c, b);
    if Screen(h, c, b) == Accepted {
      assert StartReplay(heap, c, b') == StartReplay(heap, c, b);
      AfterGates(h, heap, c, b);
      AfterGates(h, heap, c, b');
    }
  }

  /** Adding the first child of the genesis block always leaves the pool
      well formed; needed before the child can be offered to the chain. */
  lemma CreateChildKeepsPoolsReady(h: Hasher, heap: Heap, c: Chain, beneficiary: Owner, now: int)
    requires ChainInv(h, heap, c)
    ensures CreateChild(h, heap, c.genesis, beneficiary, now).Success?
    ensures PoolsReady(CreateChild(h, heap, c.genesis, beneficiary, now).value.heap, c)
  {
    var m := CreateChild(h, heap, c.genesis, beneficiary, now).value;
    forall k | k in c.blocks.vals ensures Wf(m.heap, c.blocks.vals[k].utxoPool) {
      WfInGrownHeap(heap, m.heap, c.blocks.vals[k].utxoPool);
    }
  }

  /** The two difficulty rules disagree: a child made by `createChild` from
      the genesis block carries difficulty 2, but when its clock reading is
      less than half the target time after the genesis block the chain
      expects 3, so it is turned away whatever nonce was mined and however
      late it is offered. */
  lemma FreshChildOfGenesisTooFast(h: Hasher, heap: Heap, c: Chain, beneficiary: Owner, now: int, nonce: string)
    requires ChainInv(h, heap, c)
    requires now - c.genesis.timestamp < TARGET_BLOCK_TIME / 2
    ensures CreateChild(h, heap, c.genesis, beneficiary, now).Success?
    ensures PoolsReady(CreateChild(h, heap, c.genesis, beneficiary, now).value.heap, c)
    ensures var m := CreateChild(h, heap, c.genesis, beneficiary, now).value;
            AddBlock(h, m.heap, c, SetNonce(h, m.block, nonce)).verdict in {InvalidProof, AlreadyKnown, DifficultyMismatch}
  {
    CreateChildKeepsPoolsReady(h, heap, c, beneficiary, now);
    var m := CreateChild(h, heap, c.genesis, beneficiary, now).value;
    var child := SetNonce(h, m.block, nonce);
    assert !IsRoot(child) && child.parentHash == c.genesis.hash && child.timestamp == now;
    assert c.blocks.vals[child.parentHash] == c.genesis;
    assert CalculateDifficulty(c, Some(child)) == INITIAL_DIFFICULTY + 1;
  }

  /** Past twice the target time the chain expects the difficulty to fall
      to 1, while the child still carries 2, so it is turned away too. */
  lemma FreshChildOfGenesisTooSlow(h: Hasher, heap: Heap, c: Chain, beneficiary: Owner, now: int, nonce: string)
    requires ChainInv(h, heap, c)
    requires now - c.genesis.timestamp > TARGET_BLOCK_TIME * 2
    ensures CreateChild(h, heap, c.genesis, beneficiary, now).Success?
    ensures PoolsReady(CreateChild(h, heap, c.genesis, beneficiary, now).value.heap, c)
    ensures var m := CreateChild(h, heap, c.genesis, beneficiary, now).value;
            AddBlock(h, m.heap, c, SetNonce(h, m.block, nonce)).verdict in {InvalidProof, AlreadyKnown, DifficultyMismatch}
  {
    CreateChildKeepsPoolsReady(h, heap, c, beneficiary, now);
    var m := CreateChild(h, heap, c.genesis, beneficiary, now).value;
    var child := SetNonce(h, m.block, nonce);
    assert !IsRoot(child) && child.parentHash == c.genesis.hash && child.timestamp == now;
    assert c.blocks.vals[child.parentHash] == c.genesis;
    assert CalculateDifficulty(c, Some(child)) == INITIAL_DIFFICULTY - 1;
  }

  /** When the child's clock reading lies between half and twice the target
      time after genesis the two rules agree, and the child passes the
      difficulty gate. */
  lemma FreshChildOfGenesisOnTime(h: Hasher, heap: Heap, c: Chain, beneficiary: Owner, now: int, nonce: string)
    requires ChainInv(h, heap, c)
    requires TARGET_BLOCK_TIME / 2 <= now - c.genesis.timestamp <= TARGET_BLOCK_TIME * 2
    ensures CreateChild(h, heap, c.genesis, beneficiary, now).Success?
    ensures PoolsReady(CreateChild(h, heap, c.genesis, beneficiary, now).value.heap, c)
    ensures var m := CreateChild(h, heap, c.genesis, beneficiary, now).value;
            AddBlock(h, m.heap, c, SetNonce(h, m.block, nonce)).verdict !in {UnknownParent, HeightMismatch, DifficultyMismatch}
  {
    CreateChildKeepsPoolsReady(h, heap, c, beneficiary, now);
    var m := CreateChild(h, heap, c.genesis, beneficiary, now).value;
    var child := SetNonce(h, m.block, nonce);
    assert !IsRoot(child) && child.parentHash == c.genesis.hash && child.timestamp == now;
    assert c.blocks.vals[child.parentHash] == c.genesis;
    assert CalculateDifficulty(c, Some(child)) == INITIAL_DIFFICULTY;
  }

  /** Pending transactions are dropped inside the loop: when the parent is
      the tip and the first carried transaction is accepted, it leaves the
      pending set even if a later transaction gets the block rejected. */
  lemma PendingDroppedEvenWhenRejected(h: Hasher, heap: Heap, c: Chain, b: Block)
    requires PoolsReady(heap, c)
    requires Screen(h, c, b) == Accepted
    requires ParentIsTip(c, b)
    requires |b.transactions.keys| > 0
    requires BlockIsValidTransaction(StartReplay(heap, c, b).heap, StartReplay(heap, c, b).block,
                                     Values(b.transactions)[0])
    ensures Values(b.transactions)[0].hash !in AddBlock(h, heap, c, b).chain.pendingTransactions.vals
  {
    var txs := Values(b.transactions);
    var start := StartReplay(heap, c, b);
    FirstAcceptedLeavesPending(h, start, txs);
    AfterGates(h, heap, c, b);
  }

  /** After the gates, `_addBlock` leaves what the loop leaves: its entry
      objects, its candidate and its pending set, and stores the candidate
      exactly when nothing was flagged. */
  lemma AfterGates(h: Hasher, heap: Heap, c: Chain, b: Block)
    requires PoolsReady(heap, c)
    requires Screen(h, c, b) == Accepted
    ensures var done := Reapply(h, StartReplay(heap, c, b), Values(b.transactions), ParentIsTip(c, b));
            var r := AddBlock(h, heap, c, b);
            && r.verdict == (if done.invalid then InvalidTransactions else Accepted)
            && r.heap == done.heap && r.candidate == done.block
            && r.chain.pendingTransactions == done.pending
  {
  }
  /** A transaction accepted first, while dropping, is gone from the pending
      set at the end of the loop. */
  lemma FirstAcceptedLeavesPending(h: Hasher, st: Replay, txs: seq<Transaction>)
    requires Wf(st.heap, st.block.utxoPool)
    requires |txs| > 0 && BlockIsValidTransaction(st.heap, st.block, txs[0])
    ensures txs[0].hash !in Reapply(h, st, txs, true).pending.vals
  {
    var next := ReplayStep(h, st, txs[0], true);
    assert Reapply(h, st, txs, true) == Reapply(h, next, txs[1..], true);
  }

  /** `_addBlock` stores a block exactly when it passes the gates and every
      carried transaction, in `Object.values` order, is accepted by the
      candidate as the loop leaves it just before that transaction. */
  lemma AddBlockVerdict(h: Hasher, heap: Heap, c: Chain, b: Block)
    requires PoolsReady(heap, c)
    ensures AddBlock(h, heap, c, b).verdict == Accepted <==>
              && Screen(h, c, b) == Accepted
              && AcceptedInTurn(h, StartReplay(heap, c, b), Values(b.transactions), ParentIsTip(c, b))
  {
    if Screen(h, c, b) == Accepted {
      AfterGates(h, heap, c, b);
      ReapplyFlagsRejection(h, StartReplay(heap, c, b), Values(b.transactions), ParentIsTip(c, b));
    }
  }

  /** In a stored block every owner holds what it held in the parent, plus
      the subsidy when it is the beneficiary, plus what each carried
      transaction moved to or from it. */
  lemma AddBlockBalances(h: Hasher, heap: Heap, c: Chain, b: Block, o: Owner)
    requires PoolsReady(heap, c)
    requires AddBlock(h, heap, c, b).verdict == Accepted
    ensures b.parentHash in c.blocks.vals
    ensures var r := AddBlock(h, heap, c, b);
            Balance(r.heap, r.candidate.utxoPool, o) ==
            Balance(heap, c.blocks.vals[b.parentHash].utxoPool, o)
            + (if o == b.coinbaseBeneficiary then COINBASE_REWARD else 0.0)
            + Deltas(Values(b.transactions), b.coinbaseBeneficiary, o)
  {
    AfterGates(h, heap, c, b);
    var start := StartReplay(heap, c, b);
    StartReplayBalances(heap, c, b, o);
    ReapplyBalances(h, start, Values(b.transactions), ParentIsTip(c, b), o);
  }

  /** The subsidy is credited through a clone of the parent's pool, so when
      the beneficiary already holds an entry there, the parent's own balance
      rises too, and the parent stays stored with that shared entry. */
  lemma AddBlockAlsoCreditsParent(h: Hasher, heap: Heap, c: Chain, b: Block)
    requires PoolsReady(heap, c)
    requires Screen(h, c, b) == Accepted
    requires |b.transactions.keys| == 0
    requires b.coinbaseBeneficiary in c.blocks.vals[b.parentHash].utxoPool.entries
    ensures var r := AddBlock(h, heap, c, b);
            var parent := c.blocks.vals[b.parentHash];
            && r.verdict == Accepted
            && Balance(r.heap, parent.utxoPool, b.coinbaseBeneficiary) ==
               Balance(heap, parent.utxoPool, b.coinbaseBeneficiary) + COINBASE_REWARD
  {
    AfterGates(h, heap, c, b);
    var parent := c.blocks.vals[b.parentHash];
    CloneSharesEntries(heap, parent.utxoPool, b.coinbaseBeneficiary, COINBASE_REWARD);
  }

  /** A block whose one carried transaction fails is not stored, yet the
      entry objects `_addBlock` leaves behind still carry the subsidy
      credited to the parent's shared entry. */
  lemma RejectedBlockKeepsCredit(h: Hasher, heap: Heap, c: Chain, b: Block)
    requires PoolsReady(heap, c)
    requires Screen(h, c, b) == Accepted
    requires |b.transactions.keys| == 1
    requires !BlockIsValidTransaction(StartReplay(heap, c, b).heap, StartReplay(heap, c, b).block,
                                      Values(b.transactions)[0])
    requires b.coinbaseBeneficiary in c.blocks.vals[b.parentHash].utxoPool.entries
    ensures var r := AddBlock(h, heap, c, b);
            var parent := c.blocks.vals[b.parentHash];
            && r.verdict == InvalidTransactions
            && r.chain.blocks == c.blocks
            && Balance(r.heap, parent.utxoPool, b.coinbaseBeneficiary) ==
               Balance(heap, parent.utxoPool, b.coinbaseBeneficiary) + COINBASE_REWARD
  {
    AfterGates(h, heap, c, b);
    var parent := c.blocks.vals[b.parentHash];
    var txs := Values(b.transactions);
    var start := StartReplay(heap, c, b);
    var next := ReplayStep(h, start, txs[0], ParentIsTip(c, b));
    assert txs[1..] == [];
    assert Reapply(h, start, txs, ParentIsTip(c, b)) == next;
    assert next.heap == start.heap;
    CloneSharesEntries(heap, parent.utxoPool, b.coinbaseBeneficiary, COINBASE_REWARD);
  }

  /** The rebuild's start changes at most the parent's entry of the
      beneficiary, and hands out only new entries. */
  lemma StartReplayFrame(heap: Heap, c: Chain, b: Block)
    requires b.parentHash in c.blocks.vals
    requires Wf(heap, c.blocks.vals[b.parentHash].utxoPool)
    ensures var st := StartReplay(heap, c, b);
            var pool := c.blocks.vals[b.parentHash].utxoPool;
            && Untouched(heap, st.heap, Holding(pool, {b.coinbaseBeneficiary}))
            && KeepsOrFresh(heap, pool, st.block.utxoPool)
  {
  }

  /** `_addBlock` changes only the entry objects the parent's pool gives to
      the beneficiary and to the owners its carried transactions name; every
      other entry object, whichever pools share it, keeps its amount. */
  lemma AddBlockFrame(h: Hasher, heap: Heap, c: Chain, b: Block)
    requires PoolsReady(heap, c)
    requires Screen(h, c, b) == Accepted
    ensures Untouched(heap, AddBlock(h, heap, c, b).heap,
                      Holding(c.blocks.vals[b.parentHash].utxoPool, Parties(Values(b.transactions), b.coinbaseBeneficiary)))
  {
    AfterGates(h, heap, c, b);
    var pool := c.blocks.vals[b.parentHash].utxoPool;
    var start := StartReplay(heap, c, b);
    var txs := Values(b.transactions);
    var all := Parties(txs, b.coinbaseBeneficiary);
    StartReplayFrame(heap, c, b);
    ReapplyFrame(h, start, txs, ParentIsTip(c, b));
    var r := AddBlock(h, heap, c, b);
    forall id | id in heap.amounts && id !in Holding(pool, all)
      ensures id in r.heap.amounts && r.heap.amounts[id] == heap.amounts[id]
    {
      assert id !in Holding(pool, {b.coinbaseBeneficiary});
      assert id in start.heap.amounts && start.heap.amounts[id] == heap.amounts[id];
      forall o | o in all && o in start.block.utxoPool.entries ensures start.block.utxoPool.entries[o] != id {
        if o in pool.entries {
          assert pool.entries[o] in Holding(pool, all);
        }
      }
      assert id !in Holding(start.block.utxoPool, all);
    }
  }

  /** So a stored block keeps an owner's balance when its entry for that
      owner is none of those the parent gives to the parties. */
  lemma AddBlockKeepsOtherBalances(h: Hasher, heap: Heap, c: Chain, b: Block, k: string, o: Owner)
    requires PoolsReady(heap, c)
    requires Screen(h, c, b) == Accepted
    requires k in c.blocks.vals
    requires o in c.blocks.vals[k].utxoPool.entries ==>
               c.blocks.vals[k].utxoPool.entries[o] !in
               Holding(c.blocks.vals[b.parentHash].utxoPool, Parties(Values(b.transactions), b.coinbaseBeneficiary))
    ensures Balance(AddBlock(h, heap, c, b).heap, c.blocks.vals[k].utxoPool, o) ==
            Balance(heap, c.blocks.vals[k].utxoPool, o)
  {
    AddBlockFrame(h, heap, c, b);
  }

  /** The transaction-broadcast handler: the announced transaction becomes
      pending under its hash, replacing any pending one with that hash. */
  function AnnounceTransaction(c: Chain, tx: Transaction): (r: Chain)
    ensures r == c.(pendingTransactions := r.pendingTransactions)
    ensures Get(r.pendingTransactions, tx.hash) == Some(tx)
    ensures forall k :: k != tx.hash ==> Get(r.pendingTransactions, k) == Get(c.pendingTransactions, k)
  {
    c.(pendingTransactions := Put(c.pendingTransactions, tx.hash, tx))
  }

  /** `_addBlock` leaves every stored pool well formed against the entry
      objects it leaves behind. */
  lemma AddBlockKeepsPoolsReady(h: Hasher, heap: Heap, c: Chain, b: Block)
    requires PoolsReady(heap, c)
    ensures PoolsReady(AddBlock(h, heap, c, b).heap, AddBlock(h, heap, c, b).chain)
  {
    var r := AddBlock(h, heap, c, b);
    forall k | k in r.chain.blocks.vals ensures Wf(r.heap, r.chain.blocks.vals[k].utxoPool) {
      if r.verdict == Accepted && k == r.candidate.hash {
      } else {
        assert r.chain.blocks.vals[k] == c.blocks.vals[k];
        WfInGrownHeap(heap, r.heap, c.blocks.vals[k].utxoPool);
      }
    }
  }

  /** The block-broadcast handler: each received block is rebuilt from its
      wire form and offered to `_addBlock`, in order. */
  function ReceiveBlocks(h: Hasher, heap: Heap, c: Chain, js: seq<BlockJson>): (r: (Heap, Chain))
    requires PoolsReady(heap, c)
    ensures PoolsReady(r.0, r.1) && Grows(heap, r.0)
    ensures r.1.name == c.name && r.1.genesis == c.genesis
    ensures forall k :: k in c.blocks.vals ==> k in r.1.blocks.vals
    ensures r.1.pendingTransactions.vals.Keys <= c.pendingTransactions.vals.Keys
    decreases |js|
  {
    if js == [] then (heap, c)
    else
      var out := AddBlock(h, heap, c, BlockFromJson(h, js[0]));
      AddBlockKeepsPoolsReady(h, heap, c, BlockFromJson(h, js[0]));
      ReceiveBlocks(h, out.heap, out.chain, js[1..])
  }

  /** Receiving a batch keeps the chain invariant, when every received
      block's transactions have distinct hashes. */
  lemma {:induction false} ReceiveBlocksKeepsInvariant(h: Hasher, heap: Heap, c: Chain, js: seq<BlockJson>)
    requires ChainInv(h, heap, c)
    requires forall i :: 0 <= i < |js| ==> DistinctHashes(Values(BlockFromJson(h, js[i]).transactions))
    ensures ChainInv(h, ReceiveBlocks(h, heap, c, js).0, ReceiveBlocks(h, heap, c, js).1)
    decreases |js|
  {
    if js != [] {
      var b := BlockFromJson(h, js[0]);
      var out := AddBlock(h, heap, c, b);
      AddBlockKeepsInvariant(h, heap, c, b);
      forall i | 0 <= i < |js[1..]| ensures DistinctHashes(Values(BlockFromJson(h, js[1..][i]).transactions)) {
        assert js[1..][i] == js[i + 1];
      }
      ReceiveBlocksKeepsInvariant(h, out.heap, out.chain, js[1..]);
    }
  }

  /** The handler offers the blocks to `_addBlock` in delivery order: one
      more block at the end is rebuilt and offered after all the others. */
  lemma {:induction false} ReceiveBlocksInOrder(h: Hasher, heap: Heap, c: Chain, js: seq<BlockJson>, j: BlockJson)
    requires PoolsReady(heap, c)
    ensures var before := ReceiveBlocks(h, heap, c, js);
            var out := AddBlock(h, before.0, before.1, BlockFromJson(h, j));
            ReceiveBlocks(h, heap, c, js + [j]) == (out.heap, out.chain)
    decreases |js|
  {
    if js == [] {
      assert [] + [j] == [j];
      assert [j][1..] == [];
    } else {
      var out := AddBlock(h, heap, c, BlockFromJson(h, js[0]));
      AddBlockKeepsPoolsReady(h, heap, c, BlockFromJson(h, js[0]));
      assert (js + [j])[0] == js[0];
      assert (js + [j])[1..] == js[1..] + [j];
      ReceiveBlocksInOrder(h, out.heap, out.chain, js[1..], j);
    }
  }

  /** Delivering blocks the chain already holds changes nothing. */
  lemma {:induction false} ReceiveKnownBlocks(h: Hasher, heap: Heap, c: Chain, js: seq<BlockJson>)
    requires PoolsReady(heap, c)
    requires forall i :: 0 <= i < |js| ==> BlockFromJson(h, js[i]).hash in c.blocks.vals
    ensures ReceiveBlocks(h, heap, c, js) == (heap, c)
    decreases |js|
  {
    if js != [] {
      var out := AddBlock(h, heap, c, BlockFromJson(h, js[0]));
      assert out.chain == c && out.heap == heap;
      forall i | 0 <= i < |js[1..]| ensures BlockFromJson(h, js[1..][i]).hash in c.blocks.vals {
        assert js[1..][i] == js[i + 1];
      }
      ReceiveKnownBlocks(h, heap, c, js[1..]);
    }
  }
}

=== FILE: digest.dfy ===
/** The content digest the ledger hashes with (SHA-256 from crypto-js),
    treated as an uninterpreted function, and the string conversions that
    build its inputs. */
module Digest {

  /** An arbitrary digest. `ofText` is the digest of a string input; `ofNaN`
      is what the digest returns when handed the number NaN instead of a
      string, which is what happens in `_generateBlockID`. crypto-js skips a
      falsy message, so there `ofNaN` is the digest of the empty text; it is
      kept a separate parameter here, and every property proved in this
      project holds for every `Hasher`, that one included. */
  datatype Hasher = Hasher(ofText: string -> string, ofNaN: string)

  /** `s.substr(0, n)` */
  function Prefix(s: string, n: nat): (r: string)
    ensures |r| <= n
    ensures r <= s
    ensures |s| >= n ==> |r| == n
  {
    if |s| <= n then s else s[..n]
  }

  function DigitChar(d: nat): char
    requires d < 10
  {
    "0123456789"[d]
  }

  /** Decimal text of a natural number, most significant digit first. */
  function NatToDecimal(n: nat): (r: string)
    ensures |r| >= 1
    ensures forall i :: 0 <= i < |r| ==> '0' <= r[i] <= '9'
  {
    if n < 10 then [DigitChar(n)]
    else NatToDecimal(n / 10) + [DigitChar(n % 10)]
  }

  /** How JavaScript turns an integral number (a timestamp) into text when it
      is concatenated with a string, for magnitudes below 10^21; from 10^21 up
      JavaScript writes exponent notation, which is not modelled. */
  function IntToDecimal(i: int): (r: string)
    ensures |r| >= 1
    ensures (i < 0) <==> r[0] == '-'
  {
    if i < 0 then "-" + NatToDecimal(-i) else NatToDecimal(i)
  }
}

=== FILE: js_object.dfy ===
/** A JavaScript plain object used as a dictionary with string keys:
    the keys are remembered in insertion order (that is the order of
    `Object.values`), assigning to a present key keeps its position, and
    `delete` removes the key. */
module JsObject {
  import opened Wrappers

  datatype RawDict<V> = RawDict(keys: seq<string>, vals: map<string, V>)

  /** Keys are distinct and are exactly the keys of the value map. */
  ghost predicate DictWf<V>(d: RawDict<V>) {
    && (forall i, j :: 0 <= i < j < |d.keys| ==> d.keys[i] != d.keys[j])
    && (forall k :: k in d.vals <==> k in d.keys)
  }

  type Dict<V> = d: RawDict<V> | DictWf(d) witness RawDict([], map[])

  function Empty<V>(): (r: Dict<V>)
    ensures r.keys == [] && r.vals == map[]
  {
    RawDict([], map[])
  }

  function Get<V>(d: Dict<V>, k: string): Option<V> {
    if k in d.vals then Some(d.vals[k]) else None
  }

  /** `d[k] = v` */
  function Put<V>(d: Dict<V>, k: string, v: V): (r: Dict<V>)
    ensures r.vals == d.vals[k := v]
    ensures k in d.vals ==> r.keys == d.keys
    ensures k !in d.vals ==> r.keys == d.keys + [k]
  {
    if k in d.vals then RawDict(d.keys, d.vals[k := v])
    else
      var r := RawDict(d.keys + [k], d.vals[k := v]);
      assert forall i :: 0 <= i < |d.keys| ==> d.keys[i] in d.vals;
      r
  }

  /** After `d[k] = v`, reading `k` gives `v` and every other key reads as
      before. */
  lemma GetAfterPut<V>(d: Dict<V>, k: string, v: V)
    ensures Get(Put(d, k, v), k) == Some(v)
    ensures forall x :: x != k ==> Get(Put(d, k, v), x) == Get(d, x)
  {
  }

  /** The key sequence without `k`, order kept. */
  function Without(keys: seq<string>, k: string): (r: seq<string>)
    ensures forall x :: x in r <==> x in keys && x != k
    ensures (forall i, j :: 0 <= i < j < |keys| ==> keys[i] != keys[j]) ==>
              (forall i, j :: 0 <= i < j < |r| ==> r[i] != r[j])
  {
    if keys == [] then []
    else if keys[0] == k then Without(keys[1..], k)
    else
      var rest := Without(keys[1..], k);
      assert (forall i, j :: 0 <= i < j < |keys| ==> keys[i] != keys[j]) ==> keys[0] !in keys[1..] by {
        if forall i, j :: 0 <= i < j < |keys| ==> keys[i] != keys[j] {
          forall x | x in keys[1..] ensures x != keys[0] {
            var j :| 0 <= j < |keys[1..]| && keys[1..][j] == x;
            assert keys[j + 1] == x;
          }
        }
      }
      var r := [keys[0]] + rest;
      assert forall i :: 1 <= i < |r| ==> r[i] == rest[i - 1];
      r
  }

  /** `Without` keeps the order of the keys it keeps: a key appended to the
      sequence comes out last, unless it is the one removed. */
  lemma {:induction false} WithoutKeepsOrder(keys: seq<string>, k: string, x: string)
    ensures Without(keys + [x], k) == Without(keys, k) + (if x == k then [] else [x])
  {
    if keys == [] {
      assert [] + [x] == [x];
      assert [x][1..] == [];
    } else {
      assert (keys + [x])[0] == keys[0];
      assert (keys + [x])[1..] == keys[1..] + [x];
      WithoutKeepsOrder(keys[1..], k, x);
    }
  }

  /** `delete d[k]` */
  function Remove<V>(d: Dict<V>, k: string): (r: Dict<V>)
    ensures r.vals == d.vals - {k}
    ensures forall x :: x in r.keys <==> x in d.keys && x != k
  {
    RawDict(Without(d.keys, k), d.vals - {k})
  }

  /** `Object.values(d)` */
  function Values<V>(d: Dict<V>): (r: seq<V>)
    ensures |r| == |d.keys|
    ensures forall i :: 0 <= i < |r| ==> d.keys[i] in d.vals && r[i] == d.vals[d.keys[i]]
  {
    seq(|d.keys|, i requires 0 <= i < |d.keys| => d.vals[d.keys[i]])
  }

  /** Every stored value occurs in `Object.values`, and only those. */
  lemma ValuesAreStored<V>(d: Dict<V>, v: V)
    ensures v in Values(d) <==> exists k :: k in d.vals && d.vals[k] == v
  {
    var vs := Values(d);
    if v in vs {
      var i :| 0 <= i < |vs| && vs[i] == v;
      assert d.keys[i] in d.vals && d.vals[d.keys[i]] == v;
    }
    if exists k :: k in d.vals && d.vals[k] == v {
      var k :| k in d.vals && d.vals[k] == v;
      var i :| 0 <= i < |d.keys| && d.keys[i] == k;
      assert vs[i] == v;
    }
  }

  /** Assigning a fresh key appends its value to `Object.values`. */
  lemma {:induction false} ValuesOfFreshPut<V>(d: Dict<V>, k: string, v: V)
    requires k !in d.vals
    ensures Values(Put(d, k, v)) == Values(d) + [v]
  {
    var r := Put(d, k, v);
    assert forall i :: 0 <= i < |d.keys| ==> d.keys[i] != k;
    assert Values(r) == Values(d) + [v];
  }
}

=== FILE: transaction.dfy ===
/** A transfer intent. Signature production and checking belong to an
    external component, so whether the signature verifies is carried as a
    plain boolean. */
module Transactions {

  type Owner = string

  datatype Transaction = Transaction(
    hash: string,
    inputPublicKey: Owner,
    outputPublicKey: Owner,
    amount: real,
    fee: real,
    validSignature: bool)

  /** `transaction.hasValidSignature()` */
  predicate HasValidSignature(tx: Transaction) {
    tx.validSignature
  }
}

=== FILE: utxo_pool.dfy ===
/** The UTXO pool: one unspent balance entry per owner.

    In the JavaScript ledger every entry is a `UTXO` object and a pool is a `Map`
    from owner to object. Cloning a pool copies the map but not the
    objects, and credits and debits change an object's amount in place, so
    a clone and its original can see each other's balance changes. To keep
    that behaviour, entry objects live in one `Heap` (entry id -> amount)
    and a `Pool` maps owners to entry ids. */
module UtxoPool {
  import opened Wrappers
  import opened Transactions

  type EntryId = nat

  /** All `UTXO` objects: their current amounts and the next unused id. */
  datatype Heap = Heap(amounts: map<EntryId, real>, next: EntryId)

  /** A `UTXOPool`: owner -> the entry object that holds their balance. */
  datatype Pool = Pool(entries: map<Owner, EntryId>)

  /** A heap together with the pool an operation acted on. */
  datatype Ledger = Ledger(heap: Heap, pool: Pool)

  /** Why a transaction cannot be applied, in the order they are diagnosed. */
  datatype TxError =
    | NoUtxo                 // "No UTXO was associated with this public key"
    | AmountNotPositive      // "Amount has to be at least 0"
    | InsufficientFunds(available: real, amount: real, fee: real)
    | UnknownError           // "Unknown error"

  /** Every allocated id lies below the allocation counter. */
  ghost predicate HeapWf(heap: Heap) {
    forall id :: id in heap.amounts ==> id < heap.next
  }

  /** Representation invariant of a pool against the heap: its entries exist
      and no two owners of one pool share an entry. */
  ghost predicate Wf(heap: Heap, pool: Pool) {
    && HeapWf(heap)
    && (forall o :: o in pool.entries ==> pool.entries[o] in heap.amounts)
    && (forall o1, o2 :: o1 in pool.entries && o2 in pool.entries && o1 != o2 ==>
          pool.entries[o1] != pool.entries[o2])
  }

  /** Objects are never freed and ids never reused. */
  ghost predicate Grows(before: Heap, after: Heap) {
    before.amounts.Keys <= after.amounts.Keys && before.next <= after.next
  }

  /** The entry objects a pool gives to the given owners. */
  function Holding(pool: Pool, owners: set<Owner>): set<EntryId> {
    set o | o in owners && o in pool.entries :: pool.entries[o]
  }

  /** Entry objects outside `owned` keep their amounts. */
  ghost predicate Untouched(before: Heap, after: Heap, owned: set<EntryId>) {
    forall id :: id in before.amounts && id !in owned ==>
      id in after.amounts && after.amounts[id] == before.amounts[id]
  }

  /** Each owner of `after` holds either the entry it held in `before` or an
      entry object that did not exist yet. */
  ghost predicate KeepsOrFresh(heap: Heap, before: Pool, after: Pool) {
    forall o :: o in after.entries ==>
      || after.entries[o] !in heap.amounts
      || (o in before.entries && after.entries[o] == before.entries[o])
  }

  /** The entry `id` is none of those the pool gives to the three owners. */
  predicate NotHeldByAny(pool: Pool, id: EntryId, a: Owner, b: Owner, c: Owner) {
    && (a in pool.entries ==> id != pool.entries[a])
    && (b in pool.entries ==> id != pool.entries[b])
    && (c in pool.entries ==> id != pool.entries[c])
  }

  /** Balance of an owner; an owner without an entry has balance zero. */
  function Balance(heap: Heap, pool: Pool, owner: Owner): real {
    if owner in pool.entries && pool.entries[owner] in heap.amounts
    then heap.amounts[pool.entries[owner]] else 0.0
  }

  /** A pool that is well formed against one heap stays so in a grown heap. */
  lemma WfInGrownHeap(h1: Heap, h2: Heap, pool: Pool)
    requires Wf(h1, pool) && HeapWf(h2) && Grows(h1, h2)
    ensures Wf(h2, pool)
  {
  }

  /** `addUTXO(publicKey, amount)`: credit an existing entry in place, or
      allocate a new entry object for an owner that has none. */
  function AddUtxo(heap: Heap, pool: Pool, owner: Owner, amount: real): (r: Ledger)
    requires Wf(heap, pool)
    ensures Wf(r.heap, r.pool) && Grows(heap, r.heap)
    ensures r.pool.entries.Keys == pool.entries.Keys + {owner}
    ensures Balance(r.heap, r.pool, owner) == Balance(heap, pool, owner) + amount
    ensures forall o :: o != owner ==> Balance(r.heap, r.pool, o) == Balance(heap, pool, o)
    // an owner that already has an entry keeps it: only that object's amount changes
    ensures owner in pool.entries ==> r.pool == pool
    ensures forall id :: id in heap.amounts && (owner !in pool.entries || id != pool.entries[owner]) ==>
              r.heap.amounts[id] == heap.amounts[id]
  {
    if owner in pool.entries then
      var id := pool.entries[owner];
      Ledger(Heap(heap.amounts[id := heap.amounts[id] + amount], heap.next), pool)
    else
      var id := heap.next;
      Ledger(Heap(heap.amounts[id := amount], heap.next + 1), Pool(pool.entries[owner := id]))
  }

  /** `isValidTransaction(transaction)` */
  predicate IsValidTransaction(heap: Heap, pool: Pool, tx: Transaction) {
    && tx.inputPublicKey in pool.entries
    && Balance(heap, pool, tx.inputPublicKey) >= tx.amount + tx.fee
    && tx.amount > 0.0
  }

  /** `addingTransactionErrorMessage(transaction)`: the first failing check,
      in source order, or `UnknownError` when none fails. */
  function ErrorMessage(heap: Heap, pool: Pool, tx: Transaction): (r: TxError)
    ensures r == NoUtxo <==> tx.inputPublicKey !in pool.entries
    ensures r == AmountNotPositive <==> tx.inputPublicKey in pool.entries && tx.amount <= 0.0
    ensures r.InsufficientFunds? <==>
              tx.inputPublicKey in pool.entries && tx.amount > 0.0 &&
              Balance(heap, pool, tx.inputPublicKey) < tx.amount + tx.fee
    ensures r.InsufficientFunds? ==>
              r == InsufficientFunds(Balance(heap, pool, tx.inputPublicKey), tx.amount, tx.fee)
  {
    if tx.inputPublicKey !in pool.entries then NoUtxo
    else if tx.amount <= 0.0 then AmountNotPositive
    else if Balance(heap, pool, tx.inputPublicKey) < tx.amount + tx.fee then
      InsufficientFunds(Balance(heap, pool, tx.inputPublicKey), tx.amount, tx.fee)
    else UnknownError
  }

  /** The diagnosis is "Unknown error" exactly for the transactions the pool
      accepts. */
  lemma ErrorMessageUnknownIffValid(heap: Heap, pool: Pool, tx: Transaction)
    ensures ErrorMessage(heap, pool, tx) == UnknownError <==> IsValidTransaction(heap, pool, tx)
  {
  }

  /** Sum of the balances of the given owners. */
  ghost function SumOver(heap: Heap, pool: Pool, owners: set<Owner>): real
    decreases owners
  {
    if owners == {} then 0.0
    else
      var o :| o in owners;
      Balance(heap, pool, o) + SumOver(heap, pool, owners - {o})
  }

  /** Sum of all balances held in a pool. */
  ghost function Total(heap: Heap, pool: Pool): real {
    SumOver(heap, pool, pool.entries.Keys)
  }

  /** Any owner of the set can be split off the sum. */
  lemma {:induction false} SumSplit(heap: Heap, pool: Pool, owners: set<Owner>, x: Owner)
    requires x in owners
    ensures SumOver(heap, pool, owners) == Balance(heap, pool, x) + SumOver(heap, pool, owners - {x})
    decreases owners
  {
    var o :| o in owners && SumOver(heap, pool, owners) ==
      Balance(heap, pool, o) + SumOver(heap, pool, owners - {o});
    if o != x {
      SumSplit(heap, pool, owners - {o}, x);
      SumSplit(heap, pool, owners - {x}, o);
      assert owners - {o} - {x} == owners - {x} - {o};
    }
  }

  /** Two ledgers that agree on every owner of the set have equal sums. */
  lemma {:induction false} SumAgree(l1: Ledger, l2: Ledger, owners: set<Owner>)
    requires forall o :: o in owners ==> Balance(l1.heap, l1.pool, o) == Balance(l2.heap, l2.pool, o)
    ensures SumOver(l1.heap, l1.pool, owners) == SumOver(l2.heap, l2.pool, owners)
    decreases owners
  {
    if owners != {} {
      var x :| x in owners;
      SumSplit(l1.heap, l1.pool, owners, x);
      SumSplit(l2.heap, l2.pool, owners, x);
      SumAgree(l1, l2, owners - {x});
    }
  }

  /** Changing one owner's balance by `delta` changes the sum by `delta`. */
  lemma SumOneChange(l1: Ledger, l2: Ledger, owners: set<Owner>, x: Owner, delta: real)
    requires x in owners
    requires Balance(l2.heap, l2.pool, x) == Balance(l1.heap, l1.pool, x) + delta
    requires forall o :: o in owners && o != x ==> Balance(l1.heap, l1.pool, o) == Balance(l2.heap, l2.pool, o)
    ensures SumOver(l2.heap, l2.pool, owners) == SumOver(l1.heap, l1.pool, owners) + delta
  {
    SumSplit(l1.heap, l1.pool, owners, x);
    SumSplit(l2.heap, l2.pool, owners, x);
    SumAgree(l1, l2, owners - {x});
  }

  /** Owners with a zero balance add nothing to a sum. */
  lemma {:induction false} SumZeroExtension(heap: Heap, pool: Pool, small: set<Owner>, big: set<Owner>)
    requires small <= big
    requires forall o :: o in big - small ==> Balance(heap, pool, o) == 0.0
    ensures SumOver(heap, pool, big) == SumOver(heap, pool, small)
    decreases big
  {
    if big - small != {} {
      var y :| y in big - small;
      SumSplit(heap, pool, big, y);
      SumZeroExtension(heap, pool, small, big - {y});
    } else {
      forall o | o in big ensures o in small {
        assert o !in big - small;
      }
      assert big == small;
    }
  }

  /** The total of a pool is its sum over any superset of its owners. */
  lemma TotalOverSuperset(heap: Heap, pool: Pool, owners: set<Owner>)
    requires pool.entries.Keys <= owners
    ensures Total(heap, pool) == SumOver(heap, pool, owners)
  {
    SumZeroExtension(heap, pool, pool.entries.Keys, owners);
  }

  /** `addUTXO` raises the sum over any set holding the owner by the amount. */
  lemma AddUtxoSum(heap: Heap, pool: Pool, owner: Owner, amount: real, owners: set<Owner>)
    requires Wf(heap, pool) && owner in owners
    ensures SumOver(AddUtxo(heap, pool, owner, amount).heap, AddUtxo(heap, pool, owner, amount).pool, owners) ==
            SumOver(heap, pool, owners) + amount
  {
    SumOneChange(Ledger(heap, pool), AddUtxo(heap, pool, owner, amount), owners, owner, amount);
  }

  /** `addUTXO` raises the pool's total by exactly the credited amount. */
  lemma AddUtxoRaisesTotal(heap: Heap, pool: Pool, owner: Owner, amount: real)
    requires Wf(heap, pool)
    ensures Total(AddUtxo(heap, pool, owner, amount).heap, AddUtxo(heap, pool, owner, amount).pool) ==
            Total(heap, pool) + amount
  {
    var r := AddUtxo(heap, pool, owner, amount);
    var all := pool.entries.Keys + {owner};
    TotalOverSuperset(heap, pool, all);
    TotalOverSuperset(r.heap, r.pool, all);
    AddUtxoSum(heap, pool, owner, amount, all);
  }

  /** First step of `handleTransaction`: take `cost` from the owner's entry
      and drop the owner from the pool when the entry reaches exactly zero. */
  function Debit(heap: Heap, pool: Pool, owner: Owner, cost: real): (r: Ledger)
    requires Wf(heap, pool) && owner in pool.entries
    ensures Wf(r.heap, r.pool) && Grows(heap, r.heap)
    ensures owner in r.pool.entries <==> Balance(heap, pool, owner) - cost != 0.0
    ensures r.pool.entries.Keys - {owner} == pool.entries.Keys - {owner}
    ensures Balance(r.heap, r.pool, owner) == Balance(heap, pool, owner) - cost
    ensures forall o :: o != owner ==> Balance(r.heap, r.pool, o) == Balance(heap, pool, o)
    ensures forall id :: id in heap.amounts && id != pool.entries[owner] ==>
              r.heap.amounts[id] == heap.amounts[id]
  {
    var id := pool.entries[owner];
    var heap' := Heap(heap.amounts[id := heap.amounts[id] - cost], heap.next);
    if heap'.amounts[id] == 0.0 then Ledger(heap', Pool(pool.entries - {owner}))
    else Ledger(heap', pool)
  }

  /** The effect of a valid transaction: debit the input by amount plus fee,
      then credit the amount to the output and the fee to `feeReceiver`. */
  function Apply(heap: Heap, pool: Pool, tx: Transaction, feeReceiver: Owner): (r: Ledger)
    requires Wf(heap, pool) && IsValidTransaction(heap, pool, tx)
    ensures Wf(r.heap, r.pool) && Grows(heap, r.heap)
    ensures forall o :: Balance(r.heap, r.pool, o) ==
              Balance(heap, pool, o)
              - (if o == tx.inputPublicKey then tx.amount + tx.fee else 0.0)
              + (if o == tx.outputPublicKey then tx.amount else 0.0)
              + (if o == feeReceiver then tx.fee else 0.0)
    // the input entry is removed when the debit empties it, before the
    // credits, which may give the same owner a new entry
    ensures r.pool.entries.Keys ==
              (if Balance(heap, pool, tx.inputPublicKey) - (tx.amount + tx.fee) == 0.0
               then pool.entries.Keys - {tx.inputPublicKey} else pool.entries.Keys)
              + {tx.outputPublicKey, feeReceiver}
    // balance moves between owners: the pool's total is conserved
    ensures Total(r.heap, r.pool) == Total(heap, pool)
    // only the entries of the three parties change
    ensures forall id :: id in heap.amounts && NotHeldByAny(pool, id, tx.inputPublicKey, tx.outputPublicKey, feeReceiver) ==>
              id in r.heap.amounts && r.heap.amounts[id] == heap.amounts[id]
    // every owner afterwards holds its old entry or a newly made one
    ensures KeepsOrFresh(heap, pool, r.pool)
  {
    TransferBalances(heap, pool, tx, feeReceiver);
    TransferKeys(heap, pool, tx, feeReceiver);
    TransferTotal(heap, pool, tx, feeReceiver);
    TransferFrame(heap, pool, tx, feeReceiver);
    TransferKeepsOrFresh(heap, pool, tx, feeReceiver);
    // the debit, the credit to the output, the credit of the fee
    Credit(Credit(Debit(heap, pool, tx.inputPublicKey, tx.amount + tx.fee), tx.outputPublicKey, tx.amount), feeReceiver, tx.fee)
  }

  /** `addUTXO` on a heap and pool taken together. */
  function Credit(l: Ledger, owner: Owner, amount: real): Ledger
    requires Wf(l.heap, l.pool)
  {
    AddUtxo(l.heap, l.pool, owner, amount)
  }

  /** The transfer moves each balance by what the owner pays or receives. */
  lemma TransferBalances(heap: Heap, pool: Pool, tx: Transaction, feeReceiver: Owner)
    requires Wf(heap, pool) && tx.inputPublicKey in pool.entries
    ensures var r := Credit(Credit(Debit(heap, pool, tx.inputPublicKey, tx.amount + tx.fee), tx.outputPublicKey, tx.amount), feeReceiver, tx.fee);
            forall o :: Balance(r.heap, r.pool, o) ==
              Balance(heap, pool, o)
              - (if o == tx.inputPublicKey then tx.amount + tx.fee else 0.0)
              + (if o == tx.outputPublicKey then tx.amount else 0.0)
              + (if o == feeReceiver then tx.fee else 0.0)
  {
  }

  /** The transfer's owners: the input leaves when emptied, the output and
      the fee receiver join. */
  lemma TransferKeys(heap: Heap, pool: Pool, tx: Transaction, feeReceiver: Owner)
    requires Wf(heap, pool) && tx.inputPublicKey in pool.entries
    ensures Credit(Credit(Debit(heap, pool, tx.inputPublicKey, tx.amount + tx.fee), tx.outputPublicKey, tx.amount), feeReceiver, tx.fee).pool.entries.Keys ==
              (if Balance(heap, pool, tx.inputPublicKey) - (tx.amount + tx.fee) == 0.0
               then pool.entries.Keys - {tx.inputPublicKey} else pool.entries.Keys)
              + {tx.outputPublicKey, feeReceiver}
  {
  }

  /** The net change of a transfer of `x` plus `y` out of `a`, `x` to `b`
      and `y` to `c`, for one owner. */
  function Shift(o: Owner, a: Owner, b: Owner, c: Owner, x: real, y: real): real {
    - (if o == a then x + y else 0.0) + (if o == b then x else 0.0) + (if o == c then y else 0.0)
  }

  /** Moving balances by a transfer shifts the sum over a set by the part of
      the transfer that lands inside the set. */
  lemma {:induction false} SumShift(l1: Ledger, l2: Ledger, owners: set<Owner>,
                                    a: Owner, b: Owner, c: Owner, x: real, y: real)
    requires forall o :: o in owners ==>
               Balance(l2.heap, l2.pool, o) == Balance(l1.heap, l1.pool, o) + Shift(o, a, b, c, x, y)
    ensures SumOver(l2.heap, l2.pool, owners) ==
            SumOver(l1.heap, l1.pool, owners)
            - (if a in owners then x + y else 0.0) + (if b in owners then x else 0.0) + (if c in owners then y else 0.0)
    decreases owners
  {
    if owners != {} {
      var z :| z in owners;
      SumSplit(l1.heap, l1.pool, owners, z);
      SumSplit(l2.heap, l2.pool, owners, z);
      SumShift(l1, l2, owners - {z}, a, b, c, x, y);
    }
  }

  /** A transfer between owners of a set conserves the total. */
  lemma ShiftConservesTotal(l1: Ledger, l2: Ledger, a: Owner, b: Owner, c: Owner, x: real, y: real)
    requires a in l1.pool.entries
    requires l2.pool.entries.Keys <= l1.pool.entries.Keys + {b, c}
    requires forall o :: Balance(l2.heap, l2.pool, o) == Balance(l1.heap, l1.pool, o) + Shift(o, a, b, c, x, y)
    ensures Total(l2.heap, l2.pool) == Total(l1.heap, l1.pool)
  {
    var all := l1.pool.entries.Keys + {b, c};
    TotalOverSuperset(l1.heap, l1.pool, all);
    TotalOverSuperset(l2.heap, l2.pool, all);
    SumShift(l1, l2, all, a, b, c, x, y);
  }

  /** The transfer conserves the pool's total. */
  lemma TransferTotal(heap: Heap, pool: Pool, tx: Transaction, feeReceiver: Owner)
    requires Wf(heap, pool) && tx.inputPublicKey in pool.entries
    ensures var r := Credit(Credit(Debit(heap, pool, tx.inputPublicKey, tx.amount + tx.fee), tx.outputPublicKey, tx.amount), feeReceiver, tx.fee);
            Total(r.heap, r.pool) == Total(heap, pool)
  {
    var done := Credit(Credit(Debit(heap, pool, tx.inputPublicKey, tx.amount + tx.fee), tx.outputPublicKey, tx.amount), feeReceiver, tx.fee);
    TransferBalances(heap, pool, tx, feeReceiver);
    TransferKeys(heap, pool, tx, feeReceiver);
    ShiftConservesTotal(Ledger(heap, pool), done, tx.inputPublicKey, tx.outputPublicKey, feeReceiver, tx.amount, tx.fee);
  }

  /** A credit keeps every owner's entry and gives a new owner a new one. */
  lemma AddUtxoKeepsOrFresh(heap: Heap, pool: Pool, owner: Owner, amount: real)
    requires Wf(heap, pool)
    ensures KeepsOrFresh(heap, pool, AddUtxo(heap, pool, owner, amount).pool)
  {
  }

  /** A debit keeps every remaining owner's entry. */
  lemma DebitKeepsOrFresh(heap: Heap, pool: Pool, owner: Owner, cost: real)
    requires Wf(heap, pool) && owner in pool.entries
    ensures KeepsOrFresh(heap, pool, Debit(heap, pool, owner, cost).pool)
  {
  }

  /** The transfer changes only the entries the pool gives to the three
      parties. */
  lemma TransferFrame(heap: Heap, pool: Pool, tx: Transaction, feeReceiver: Owner)
    requires Wf(heap, pool) && tx.inputPublicKey in pool.entries
    ensures var done := Credit(Credit(Debit(heap, pool, tx.inputPublicKey, tx.amount + tx.fee), tx.outputPublicKey, tx.amount), feeReceiver, tx.fee);
            forall id :: id in heap.amounts && NotHeldByAny(pool, id, tx.inputPublicKey, tx.outputPublicKey, feeReceiver) ==>
              id in done.heap.amounts && done.heap.amounts[id] == heap.amounts[id]
  {
    var debited := Debit(heap, pool, tx.inputPublicKey, tx.amount + tx.fee);
    var paid := Credit(debited, tx.outputPublicKey, tx.amount);
    var done := Credit(paid, feeReceiver, tx.fee);
    DebitKeepsOrFresh(heap, pool, tx.inputPublicKey, tx.amount + tx.fee);
    AddUtxoKeepsOrFresh(debited.heap, debited.pool, tx.outputPublicKey, tx.amount);
    forall id | id in heap.amounts && NotHeldByAny(pool, id, tx.inputPublicKey, tx.outputPublicKey, feeReceiver)
      ensures id in done.heap.amounts && done.heap.amounts[id] == heap.amounts[id]
    {
      assert debited.heap.amounts[id] == heap.amounts[id];
      if tx.outputPublicKey in debited.pool.entries {
        assert debited.pool.entries[tx.outputPublicKey] == pool.entries[tx.outputPublicKey];
      }
      assert paid.heap.amounts[id] == heap.amounts[id];
      if feeReceiver in paid.pool.entries {
        if paid.pool.entries[feeReceiver] in debited.heap.amounts {
          assert paid.pool.entries[feeReceiver] == debited.pool.entries[feeReceiver];
          assert debited.pool.entries[feeReceiver] == pool.entries[feeReceiver];
        }
      }
    }
  }

  /** After the transfer an owner holding an entry the heap already had
      held that very entry before. */
  lemma TransferEntry(heap: Heap, pool: Pool, tx: Transaction, feeReceiver: Owner, o: Owner)
    requires Wf(heap, pool) && tx.inputPublicKey in pool.entries
    ensures var done := Credit(Credit(Debit(heap, pool, tx.inputPublicKey, tx.amount + tx.fee), tx.outputPublicKey, tx.amount), feeReceiver, tx.fee);
            o in done.pool.entries && done.pool.entries[o] in heap.amounts ==>
              o in pool.entries && done.pool.entries[o] == pool.entries[o]
  {
    var debited := Debit(heap, pool, tx.inputPublicKey, tx.amount + tx.fee);
    var paid := Credit(debited, tx.outputPublicKey, tx.amount);
    var done := Credit(paid, feeReceiver, tx.fee);
    CreditEntry(paid, feeReceiver, tx.fee, o);
    CreditEntry(debited, tx.outputPublicKey, tx.amount, o);
    DebitEntry(heap, pool, tx.inputPublicKey, tx.amount + tx.fee, o);
  }

  /** After a credit an owner holding an entry of the old heap held it before. */
  lemma CreditEntry(l: Ledger, owner: Owner, amount: real, o: Owner)
    requires Wf(l.heap, l.pool)
    ensures var r := Credit(l, owner, amount);
            && l.heap.amounts.Keys <= r.heap.amounts.Keys
            && (o in r.pool.entries && r.pool.entries[o] in l.heap.amounts ==>
                  o in l.pool.entries && r.pool.entries[o] == l.pool.entries[o])
  {
  }

  /** After a debit every remaining owner holds the entry it held before. */
  lemma DebitEntry(heap: Heap, pool: Pool, owner: Owner, cost: real, o: Owner)
    requires Wf(heap, pool) && owner in pool.entries
    ensures var r := Debit(heap, pool, owner, cost);
            && heap.amounts.Keys <= r.heap.amounts.Keys
            && (o in r.pool.entries ==> o in pool.entries && r.pool.entries[o] == pool.entries[o])
  {
  }

  /** The transfer hands out only new entries: every owner afterwards holds
      the entry it held before or one the heap did not have. */
  lemma TransferKeepsOrFresh(heap: Heap, pool: Pool, tx: Transaction, feeReceiver: Owner)
    requires Wf(heap, pool) && tx.inputPublicKey in pool.entries
    ensures KeepsOrFresh(heap, pool, Credit(Credit(Debit(heap, pool, tx.inputPublicKey, tx.amount + tx.fee), tx.outputPublicKey, tx.amount), feeReceiver, tx.fee).pool)
  {
    forall o {
      TransferEntry(heap, pool, tx, feeReceiver, o);
    }
  }

  /** How a valid transaction moves one owner's balance: the output gains
      the amount, the fee receiver the fee, the input loses both. */
  function TxDelta(tx: Transaction, feeReceiver: Owner, o: Owner): real {
    (if o == tx.outputPublicKey then tx.amount else 0.0)
    + (if o == feeReceiver then tx.fee else 0.0)
    - (if o == tx.inputPublicKey then tx.amount + tx.fee else 0.0)
  }

  /** `handleTransaction(transaction, feeReceiver)`: throws (with the
      diagnosis as message, nothing changed) on an invalid transaction. */
  function HandleTransaction(heap: Heap, pool: Pool, tx: Transaction, feeReceiver: Owner)
    : (r: Result<Ledger, TxError>)
    requires Wf(heap, pool)
    ensures r.Failure? <==> !IsValidTransaction(heap, pool, tx)
    ensures r.Failure? ==> r.error == ErrorMessage(heap, pool, tx) && r.error != UnknownError
    ensures r.Success? ==> r.value == Apply(heap, pool, tx, feeReceiver)
  {
    if !IsValidTransaction(heap, pool, tx) then Failure(ErrorMessage(heap, pool, tx))
    else Success(Apply(heap, pool, tx, feeReceiver))
  }

  /** A transaction applied to a pool whose balances are all non-negative
      leaves them non-negative when its fee is non-negative. */
  lemma ApplyKeepsBalancesNonNegative(heap: Heap, pool: Pool, tx: Transaction, feeReceiver: Owner)
    requires Wf(heap, pool) && IsValidTransaction(heap, pool, tx) && tx.fee >= 0.0
    requires forall o :: Balance(heap, pool, o) >= 0.0
    ensures forall o :: Balance(Apply(heap, pool, tx, feeReceiver).heap, Apply(heap, pool, tx, feeReceiver).pool, o) >= 0.0
  {
  }

  /** `clone()`: a new map from owners to the SAME entry objects. As a value
      it equals the original; what is shared is the objects its ids name. */
  function Clone(pool: Pool): (r: Pool)
    ensures r.entries.Keys == pool.entries.Keys
    ensures forall o :: o in pool.entries ==> r.entries[o] == pool.entries[o]
    ensures forall heap: Heap, o: Owner :: Balance(heap, r, o) == Balance(heap, pool, o)
  {
    Pool(pool.entries)
  }

  /** Crediting, through a clone, an owner the original already holds changes
      the original's balance too: the entry object is shared. */
  lemma CloneSharesEntries(heap: Heap, pool: Pool, owner: Owner, amount: real)
    requires Wf(heap, pool) && owner in pool.entries
    ensures Wf(heap, Clone(pool))
    ensures Balance(AddUtxo(heap, Clone(pool), owner, amount).heap, pool, owner) ==
            Balance(heap, pool, owner) + amount
  {
  }

  /** Adding a new owner through a clone does not touch the original: its
      owners and all its balances stay as they were. */
  lemma CloneKeysIndependent(heap: Heap, pool: Pool, owner: Owner, amount: real)
    requires Wf(heap, pool) && owner !in pool.entries
    ensures Wf(heap, Clone(pool))
    ensures owner in AddUtxo(heap, Clone(pool), owner, amount).pool.entries
    ensures forall o :: Balance(AddUtxo(heap, Clone(pool), owner, amount).heap, pool, o) ==
                        Balance(heap, pool, o)
  {
    var r := AddUtxo(heap, Clone(pool), owner, amount);
    forall o ensures Balance(r.heap, pool, o) == Balance(heap, pool, o) {
      if o in pool.entries {
        assert pool.entries[o] in heap.amounts;
      }
    }
  }

  /** Worked example: an owner holding only a 12.5 coinbase entry pays 10 with
      fee 1 to another owner; afterwards the payer holds 1.5, the payee 10 and
      the fee receiver 1. */
  lemma PaymentExample(heap: Heap, pool: Pool, a: Owner, b: Owner, miner: Owner, hash: string)
    requires Wf(heap, pool) && pool.entries.Keys == {a} && Balance(heap, pool, a) == 12.5
    requires a != b && b != miner && a != miner
    ensures var tx := Transaction(hash, a, b, 10.0, 1.0, true);
            var r := HandleTransaction(heap, pool, tx, miner);
            && r.Success?
            && Balance(r.value.heap, r.value.pool, a) == 1.5
            && Balance(r.value.heap, r.value.pool, b) == 10.0
            && Balance(r.value.heap, r.value.pool, miner) == 1.0
            && r.value.pool.entries.Keys == {a, b, miner}
  {
    var tx := Transaction(hash, a, b, 10.0, 1.0, true);
    assert IsValidTransaction(heap, pool, tx);
    PaymentExampleBalances(heap, pool, a, b, miner, hash);
  }

  /** The balances of the worked example, after the transfer itself. */
  lemma PaymentExampleBalances(heap: Heap, pool: Pool, a: Owner, b: Owner, miner: Owner, hash: string)
    requires Wf(heap, pool) && a in pool.entries && Balance(heap, pool, a) == 12.5
    requires a != b && b != miner && a != miner
    ensures var tx := Transaction(hash, a, b, 10.0, 1.0, true);
            var r := Apply(heap, pool, tx, miner);
            && Balance(r.heap, r.pool, a) == 1.5
            && Balance(r.heap, r.pool, b) == Balance(heap, pool, b) + 10.0
            && Balance(r.heap, r.pool, miner) == Balance(heap, pool, miner) + 1.0
  {
  }
}

=== FILE: wrappers.dfy ===
/** Optional values and results with an error, used where the ledger code
    returns `null`/`undefined` or throws. */
module Wrappers {

  datatype Option<+T> = None | Some(value: T) {
    function GetOr(default: T): T {
      match this
      case Some(v) => v
      case None => default
    }
  }

  datatype Result<+T, +E> = Success(value: T) | Failure(error: E)
}
